=== FILE: README.md ===
# Shift scheduler core, modelled in Dafny

The application keeps a schedule store of shift codes keyed by team, date
and person. Around it sit three parts, and this project models all three:

- **Manual edits.** A person's cell is edited by hand through a picker. Two
  rules guard every edit: no "918" right after a "1500", and at most one
  rest day ("Off") per week bucket of the displayed range.
- **The generator.** It fills a team's schedule for a date range, one day at
  a time:
  - an initial pass over the persons in a shuffled order, with forcing
    rules (six-day streak, six working days in the bucket, no "918" after
    "1500") and a pick policy;
  - then the repair passes: pass A (at least one "1322"), pass B (at least
    three "1500"), the all-off guard, and pass C (a second "1322" check with
    roll-back);
  - finally, the day's picks are committed to the store.
- **The pick policy** (`selectShift`). It applies daily caps (one "1322",
  four "1500"), then load balancing of "918"/"1500" against the team
  minimum, then a random choice among the surviving working shifts.

## Modules

- `Shifts`: the shift codes and their categories.
- `Dates`: `DaysBetween` and the week bucket `WeekInRange`.
  - A date is an integer day number; day 0 is 1970-01-01.
  - Weekdays are numbered as JavaScript's `getDay` numbers them.
- `Store`: `GetShift`/`SetShift` over a map keyed by (team, date, person).
- `EditGate`: the gate of `assignShift` and the button states of `openShiftModal`.
- `Selection`: `selectShift`, with the day's provisional picks as a sequence indexed by person position.
- `RunState`: the per-person state of a run and the initial pass for one person.
- `Repair`: the day record, passes A, B and C, and the all-off guard.
- `Generator`: the per-day loop, the commit, and the run-level properties.

## How randomness is modelled

The generator depends on two random sources:

- The daily shuffle is a parameter `shuffle(k)`. It must be a permutation of
  the person positions for every day index `k`.
- The `Math.random()` draw of the pick policy is `rand(j)`, where `j`
  counts the calls of the pick policy in the run, from 0. The policy picks
  `valid[draw % |valid|]`.

`Selection.EverySurvivorReachable` shows that this loses no behaviour: every
surviving working shift is the outcome of some draw.

## Model

| member | source | states |
|---|---|---|
| Dates.DayOfWeek | script.js:138-142 | the weekday number lies in 0..6 and is the day number's residue, so day 0 is a Thursday |
| Dates.SameWeekday | script.js:138-142 | two dates share a weekday exactly when they are a multiple of seven days apart |
| Dates.DaysBetween | script.js:124-136 | the range is every day from start to end inclusive, in order, one per position; empty when start > end |
| Dates.MondayOf | script.js:167-175 | the range's first Monday is a Monday and lies at most six days before the date (a Sunday steps back six) |
| Dates.WeekInRange | script.js:165-187 | the bucket is at least 1; dates before the range's first Monday get 1; otherwise the date lies inside the bucket's seven-day window counted from that Monday |
| Dates.WeekOfMonday | script.js:165-187 | from the first Monday on, the bucket minus one is the number of whole weeks between the two Mondays |
| Dates.SameWeekSameBucket | script.js:165-187 | two dates of one Monday-to-Sunday week share a bucket |
| Dates.WeekMonotone | script.js:165-187 | the bucket never decreases as the date advances |
| Dates.NextWeekNextBucket | script.js:165-187 | one week later is exactly the next bucket |
| Dates.RangeStartIsBucketOne | script.js:165-187 | the range's own first day is always in bucket 1 |
| Dates.WednesdayStartExample | script.js:165-187 | a range starting on Wednesday 2024-01-03 puts Monday 1 to Sunday 7 January in bucket 1 and Monday 8 January in bucket 2 |
| Store.GetShift | script.js:796-801 | a cell reads as absent exactly when the store has no entry for it, and otherwise as its stored code |
| Store.SetShift | script.js:803-818 | the written cell then reads back the written shift, an empty shift clears it, and every other cell reads as before |
| Store.SetWhatIsStored | script.js:796-818 | writing back what a cell reads leaves the store unchanged |
| Store.SetOverrides | script.js:803-818 | the second of two writes to one cell wins |
| Store.SetCommutes | script.js:803-818 | writes to different cells can be reordered |
| EditGate.OffsInBucket | script.js:930-941 | the count is at most the number of days of the range, and strictly less when the edited day is in the range; what it counts is pinned by EditGate.OffsInBucketPositive |
| EditGate.OffsInBucketPositive | script.js:925-941 | the rest-day count of the bucket is positive exactly when another day of the range in the same bucket holds Off |
| EditGate.CanAssign | script.js:903-948 | "918" is refused exactly when the day before holds "1500"; Off is refused exactly when the cell is not Off and another day of the bucket is Off; every other code is allowed; the refusal names the rule that fired |
| EditGate.AssignShift | script.js:903-951 | an edit is accepted exactly when the rules allow it; an accepted edit sets that cell and no other |
| EditGate.ModalButtons | script.js:838-898 | the picker enables "918" and Off exactly when the edit gate would accept them on that cell |
| Selection.Min918 | script.js:1538 | the team minimum of "918" counts is a lower bound attained by some person |
| Selection.Min1500 | script.js:1539 | the team minimum of "1500" counts is a lower bound attained by some person |
| Selection.Surviving | script.js:1518-1528 | a capped code is removed, an uncapped code stays, and the other candidates stay |
| Selection.RandomPick | script.js:1551-1557 | the random choice is Off exactly when only Off survives, and is otherwise a surviving working shift |
| Selection.SelectShift | script.js:1500-1558 | the result is a surviving candidate or Off; Off exactly when no working shift survives, so never while "918" is a candidate; a capped code is never returned; each balancing rule wins when it applies |
| Selection.EverySurvivorReachable | script.js:1551-1555 | without a balancing rule, every surviving working shift is returned for some random draw |
| Selection.RandomPickHits | script.js:1551-1557 | every working shift among the survivors is the random choice of some draw |
| Selection.TallySet | script.js:1502-1516 | overwriting one slot changes the tally of others' picks by the old and new slot's contributions only |
| Selection.TallyIgnoresSkipped | script.js:1502-1516 | the person's own slot never counts toward the tally the caps see |
| Selection.TallySkipEmpty | script.js:1502-1516 | when the skipped person does not hold the code, the tally of others equals the full count |
| Selection.CountZero | script.js:1238-1240 | the count of a code is zero exactly when nobody holds it |
| Selection.CountPositive | script.js:1238-1240 | a holder makes the count positive |
| RunState.Record | script.js:1061-1076 | a working pick adds one working day to the bucket and to the streak, and to the person's 918/1500 count and the day's tally of that code; other buckets' work tallies never change; a rest or leave pick changes nothing but the previous shift |
| RunState.Rest | script.js:1078-1083 | a forced rest adds one rest day to the bucket and leaves work tallies and counts alone |
| RunState.ForcedStep | script.js:1054-1121 | a forced rule gives Off, counted, while the bucket has no rest day; otherwise it gives a working shift ("cap relief") |
| RunState.AfterLateStep | script.js:1124-1180 | after a "1500" the pick is never "918"; a counted Off resets the streak; a stuck fallback leaves an uncounted Off |
| RunState.AfterLateFallback | script.js:1152-1171 | the fallback never gives "918" and never counts a rest day; Off comes back only as the stuck outcome |
| RunState.RegularStep | script.js:1182-1234 | without a forcing rule the pick is always a working shift |
| RunState.InitialStep | script.js:1037-1234 | which rule fires, each in its precedence order; forced rest only in a bucket without a rest day; no "918" after "1500" outside relief; every Off counted except a stuck one; the caps respected |
| Repair.Put | script.js:1313-1325 | moving a person to a working shift adds one working day to today's bucket and none to any other, one streak day, one count and one day tally of that code, and touches nobody else |
| Repair.Target1322 | script.js:1238-1259 | the target is the first eligible person of the processing order, and exists exactly when nobody holds "1322" and somebody is eligible |
| Repair.Marked | script.js:1266 | the target alone is moved to "1322" |
| Repair.MarkedCovers | script.js:1237-1279 | afterwards somebody holds "1322" exactly when somebody did or somebody was eligible; still at most one holder; the "1500" count does not grow |
| Repair.PassA | script.js:1237-1279 | pass A moves the target to "1322" with one more working day and one more streak day, without rolling back the overwritten pick's counters; nobody else changes; without a target nothing changes; previous shift stays today's pick |
| Repair.RollBack | script.js:1454-1476 | undoes the overwritten pick's "918"/"1500" count and day tally, and for a working pick one working day and one streak day where positive |
| Repair.PassC | script.js:1428-1491 | pass C does what pass A does, but first rolls back the overwritten pick: a working pick's work tally is net unchanged, and so is its streak unless the streak was zero; any other pick adds one streak day |
| Repair.AssignLate | script.js:1303-1326 | exactly the chosen persons end on "1500"; each person chosen once gains one working day, one streak day and one "1500" count with the overwritten pick not rolled back; the day's "1500" tally grows by the number chosen; everybody else's state and counts are untouched |
| Repair.AssignLateAtMost | script.js:1303-1326 | the "1500" count grows by at most the number moved |
| Repair.AssignLateCount | script.js:1303-1326 | moving distinct persons not yet on "1500" grows the count by exactly their number |
| Repair.LateChosen | script.js:1286-1304 | only eligible persons are moved, no more than the shortfall to three; exactly the shortfall unless every eligible person is moved; with a duplicate-free order nobody eligible is passed over for someone later in it |
| Repair.FilterPrefixFirst | script.js:1286-1304 | any leading part of the filtered order takes persons in the order's sequence, skipping nobody who qualifies |
| Repair.PassB | script.js:1281-1327 | pass B only turns eligible persons' picks into "1500"; each moved person gains one working day, one streak day and one "1500" count without roll-back of the overwritten pick; every person whose pick it keeps has state and counts untouched; "1322" stays single; nothing happens with three on "1500" or fewer than three persons |
| Repair.PassBCovers | script.js:1281-1327 | after pass B three persons hold "1500", or every eligible person does |
| Repair.PassBAtMostThree | script.js:1302-1303 | pass B never pushes the "1500" count past three |
| Repair.PassBCountsTwice | script.js:1307-1325 | pass B overwrites a "918" without rolling it back: a person with one working day and a streak of one ends pass B on "1500" alone with two working days and a streak of two |
| Repair.GuardShift | script.js:1355-1356 | the guard always hands out a working shift |
| Repair.GuardAssign | script.js:1354-1378 | the guard's person gets a working shift that becomes their previous shift, with one more working day and streak day; nobody else changes |
| Repair.GuardTarget | script.js:1330-1394 | the guard acts only when everybody rests; it picks the first person of the order under both work caps, and when there is none, the first one without a rest day this bucket; it picks nobody exactly when not everybody rests, the team is empty, or both searches find nobody |
| Repair.Guard | script.js:1329-1426 | not everybody rests when someone is under both caps; when every rest day is counted, the relaxed second search never fires |
| Repair.FirstRepairs | script.js:1237-1327 | after passes A and B each pick is unchanged, "1322" or "1500"; "1322" stays single; "1500" stays at most three; rest tallies are untouched |
| Repair.Repairs | script.js:1237-1491 | after the repair passes each pick is unchanged, "1322", "1500", or the guard's working shift; "1322" stays single; "1500" stays at most three; rest tallies are untouched; the day ends without "1322" only when nobody of the order is eligible for it, and with everybody resting only when nobody is under both work caps |
| Repair.GuardThenPassC | script.js:1329-1491 | after the guard and pass C, no "1322" means nobody is eligible for it; everybody resting means neither step changed the day and nobody is under both work caps |
| Repair.UntouchedWhenAllOff | script.js:1237-1332 | when everybody rests after pass B, passes A and B changed no pick and no person |
| Repair.NoneFor1322 | script.js:1428-1446 | nobody who rests with the bucket's rest day used is eligible for pass C's "1322" |
| Repair.RescueAfterPassB | script.js:1329-1446 | with every rest day counted, a guard rescue comes from the first search, leaves that person at most at both work caps, everybody else resting, and pass C with nothing to do |
| Repair.GuardRescueStands | script.js:1237-1491 | with every rest day of the initial pass counted, the guard's person was under both work caps, and the day ends with that person working, at most at both caps, and everybody else resting |
| Generator.FillKeepsTallies | script.js:1060-1076 | the running tallies stay equal to the picks' counts, and a "1500" is only picked while at most one other person holds it |
| Generator.HandlePerson | script.js:1037-1235 | one person's initial pick lands in their slot only, changes nobody else's state or counts, keeps the tallies and the single "1322", and settles the person: a relief branch only with a work cap reached and the bucket's rest day used, a stuck rest day only after a "1500" with the bucket's rest day used |
| Generator.ProgressStep | script.js:1037 | handling the next person of the shuffled order extends the handled prefix by that person |
| Generator.InitialPass | script.js:1032-1235 | every person is settled once: a generated pick that becomes the previous shift; "918" after "1500" only under a relief branch, taken only with a work cap reached and the bucket's rest day used; every rest day counted in a bucket that had none, except a stuck one, which follows a "1500" in a bucket whose rest day is used; at most one "1322"; at most two "1500" |
| Generator.InitialOffsRested | script.js:1078-1083 | with tallies from zero, every rest day the initial pass picks is in a bucket whose rest tally is at least one |
| Generator.RepairsKeepSettled | script.js:1237-1491 | the repairs keep every pick generated, rest tallies unchanged, and add "918"-after-"1500" only through the guard |
| Generator.RunDay | script.js:1026-1491 | a day ends with a generated pick per person, at most one "1322", at most three "1500", previous shift equal to today's pick, and every uncounted Off a stuck one; the report records the states the day started from; a relief branch had a work cap reached and the rest day used; a stuck rest day followed a "1500" with the rest day used; a guard rescue leaves its person working, at most at both caps, and everybody else resting; the day ends without "1322" only when everybody has reached a work cap or used the bucket's rest day, and with everybody resting only when everybody has reached a work cap |
| Generator.EndOfDayShows | script.js:1237-1491 | over an order that lists every person, the repairs' end-of-day searches finding nobody means every person is capped, or capped or rested for "1322" |
| Generator.CommitDay | script.js:1493-1496 | each person's cell of the date holds their pick; no other cell changes |
| Generator.CoveredStep | script.js:1493-1496 | a committed day of generated picks extends the covered prefix of the range |
| Generator.Single1322Step | script.js:1493-1496 | a committed day keeps every committed day at one "1322" at most |
| Generator.LateEarlyStep | script.js:1124-1134 | every "918" after a "1500" in committed days stays excused by a relief branch or the guard |
| Generator.RestsTalliedStep | script.js:1078-1083 | every counted rest day stays visible in its bucket's tally |
| Generator.OneRestStep | script.js:1129-1132 | a new counted rest day never shares a bucket with an earlier counted one |
| Generator.RunKeptStep | script.js:1026-1497 | committing one more day extends all run-level properties to it |
| Generator.StartsTracedStep | script.js:1026-1497 | committing one more day extends the trace of start states: the first day starts fresh, each later day's previous shift is the cell of the day before, rest tallies never shrink |
| Generator.LabelsTiedStep | script.js:1026-1497 | committing one more day keeps every report's relief, stuck and rescue entries tied to their conditions in the store and the start states |
| Generator.RunSoFarStep | script.js:1026-1497 | committing a day produced from the current states extends everything a run keeps and traces |
| Generator.AdvanceDay | script.js:1026-1497 | generating and committing one day keeps the run-level properties |
| Generator.RunStarts | script.js:993-1024 | a run with no committed day and fresh states keeps and traces everything |
| Generator.RunDays | script.js:1026-1497 | the day loop over the first N days of the range keeps and traces everything |
| Generator.StoreShows | script.js:1493-1497 | over the range's dates, nothing outside the team's cells changes, every cell holds a generated code, and each day has at most one "1322" |
| Generator.LateEarlyShows | script.js:1124-1134 | each "918" after a "1500" comes from a relief branch whose condition held, or from a guard rescue of a day on which everybody else rests |
| Generator.StuckShows | script.js:1152-1157 | of two rest days of one person in one bucket, one is a stuck rest day: the day before holds "1500" and the bucket's rest day was used |
| Generator.GenerateScheduleForTeam | script.js:987-1498 | an empty team changes nothing; otherwise every cell of the range is written with a generated code and nothing else changes; one "1322" per day at most; the first day starts fresh and each later day from the cell of the day before; "918" after "1500" only for a person whose run counters (streak or week's working days) reached a work cap and whose bucket's rest day is used, or for the one person working on a day when everybody else rests; two rest days in one bucket only when one of them follows a "1500" with the bucket's rest day already used |

## Left out

- The `DataManager` persistence, the DOM, the alerts and `console.warn`,
  exports, `formatDate`/`parseDate` and `getWeekNumber` are left out. They
  are I/O or presentation. Dates are day numbers, so daylight-saving jumps
  in JavaScript's `Date` arithmetic are not modelled.
- The team lookup by id (a missing team returns early) is left out: the
  generator takes the team's persons directly. An empty team is modelled.
- `Math.random` and the sort-based shuffle are parameters, and their
  distribution is not modelled.
- Generator.GenerateScheduleForTeam requires distinct person ids. The
  application makes them from the creation time (script.js:447).
- Generator.GenerateScheduleForTeam: "918" after "1500" is only stated for
  dates after the range's first day. The run starts with no previous shift,
  so a "1500" stored on the day before the range is not consulted.
- Generator.GenerateScheduleForTeam: "no 918 after 1500" is not absolute.
  The relief branches (script.js:1057-1060, 1091-1094) and the all-off guard
  (script.js:1355-1356) pick over "918", "1322" and "1500" without looking at
  yesterday. The model states the two exceptions by their conditions: a
  work cap reached with the bucket's rest day used, or the only person
  working on a day when everybody else rests.
- Generator.GenerateScheduleForTeam: "one rest day per bucket" exempts stuck
  rest days. After a "1500", once the bucket's rest day is used and both
  caps are reached, the fallback (script.js:1152-1157) returns Off without
  counting it. The model states that condition for one of the two rest days.
- Generator.GenerateScheduleForTeam: the rest tallies of a day's start state
  are stated relative to the run's own tallies, not to the stored cells.
  Pass A, pass B and pass C can overwrite a counted rest day without
  uncounting it, so a used rest day need not show as Off in the store.
- Generator.GenerateScheduleForTeam: the work-cap condition of the relief
  exception is stated on the run's own streak and week-work counters, not
  on the stored cells. Passes A and B raise both counters without rolling
  back the pick they overwrite, so the counters can run ahead of the days
  actually worked: up to three in one day, by the initial pick, pass A and
  pass B. Repair.PassA and Repair.PassB state the increments, and
  Repair.PassBCountsTwice shows two on one day. A relief branch may
  therefore fire before six working days show in the store.
- Generator.RunDay: the day need not end with three "1500". Pass C runs after
  pass B and may overwrite a "1500"; the guard fires only when everybody
  rests, so it never does. The model proves "at most three" per day and
  "three or all eligible" right after pass B (Repair.PassBCovers).

## Differences between the code and its own comments

The model follows the code in each case:

- **The "1500" cap.** The comments at script.js:1008 and script.js:1524 give
  a cap of four persons. The cap's running tally already includes the
  provisional picks, and `selectShift` adds the others' provisional "1500"
  picks again (script.js:1502-1527). So the initial pass stops picking
  "1500" once two persons hold it (Generator.InitialPass: at most two), and
  a day never reaches four (Generator.RunDay: at most three).
- **"No 918 after 1500".** The comment at script.js:1124 states the rule.
  The relief branches (script.js:1057-1060, 1091-1094) and the all-off guard
  (script.js:1355-1356) do not follow it (see Left out).
- **Pass B's eligibility.** The filter at script.js:1286-1299 does not
  exclude persons who already have a rest day this bucket, unlike pass A's
  (script.js:1241-1256). Nor does it exclude the "1322" holder, so pass B
  can take the day's only "1322"; pass C then restores one when somebody is
  eligible.
- **Roll-back only in pass C.** Pass C's comment at script.js:1456 undoes
  the overwritten pick's counters. Passes A and B overwrite without that
  step (script.js:1263-1277, 1307-1325): the overwritten pick keeps its
  counters (Repair.PassA; Repair.AssignLate through Repair.Put). The
  streak and the week's working days then count such a day more than once
  (Repair.PassBCountsTwice), and the work caps that trigger relief and
  block passes A, B and the guard are reached early.
- **The guard's limits.** The comment at script.js:1333 says the guard
  assigns someone without the weekly limit and the six-day check, but
  script.js:1345-1352 apply both. The fallback search at script.js:1382-1389
  drops them and takes persons whose bucket has no rest day yet. That
  search never fires: every person resting at that point has a counted
  rest day, stuck rest days included (Repair.Guard, Repair.GuardRescueStands,
  Generator.RunDay).
- **Unreachable branches.**
  - The regular branch's handling of an Off pick never runs, because "918"
    is always a candidate there.
  - The leave-code case after a "1500" never runs, because the pick policy
    only returns candidates or Off.
  - The model leaves both out, and RunState.RegularStep and
    RunState.AfterLateStep say why.

=== FILE: dates.dfy ===
/**
 Calendar arithmetic the scheduling rules depend on (the `DateHelper`
 object of the application).

 A date is an integer day number: day 0 is 1970-01-01, a Thursday, and
 day d + 1 is the calendar day after day d. Weekdays use the numbering of
 JavaScript's `Date.getDay`: 0 is Sunday, 1 is Monday, ..., 6 is Saturday.
 */
module Dates {

  /** Weekday of day number `d` (0 = Sunday, 1 = Monday, ..., 6 = Saturday). */
  function DayOfWeek(d: int): (r: int)
    ensures 0 <= r < 7
    ensures (d - r + 4) % 7 == 0
  {
    (d + 4) % 7
  }

  /** Day numbers a week apart fall on the same weekday and vice versa. */
  lemma SameWeekday(a: int, b: int)
    ensures DayOfWeek(a) == DayOfWeek(b) <==> (a - b) % 7 == 0
  {
    var qa, qb := (a + 4) / 7, (b + 4) / 7;
    assert a + 4 == 7 * qa + DayOfWeek(a);
    assert b + 4 == 7 * qb + DayOfWeek(b);
    assert a - b == 7 * (qa - qb) + (DayOfWeek(a) - DayOfWeek(b));
    if DayOfWeek(a) == DayOfWeek(b) {
      assert a - b == 7 * (qa - qb);
    }
  }

  /**
   The inclusive range of days from `start` to `end`, in order; empty when
   `start > end`.
   */
  function DaysBetween(start: int, end: int): (r: seq<int>)
    ensures |r| == if start <= end then end - start + 1 else 0
    ensures forall i :: 0 <= i < |r| ==> r[i] == start + i
    ensures forall d :: d in r <==> start <= d <= end
    decreases end - start
  {
    if start > end then [] else [start] + DaysBetween(start + 1, end)
  }

  /** How many days `d` lies after the Monday that opens its week. */
  function DaysToMonday(d: int): int {
    if DayOfWeek(d) == 0 then 6 else DayOfWeek(d) - 1
  }

  /** The Monday on or before `d` (a Sunday steps back six days). */
  function MondayOf(d: int): (r: int)
    ensures DayOfWeek(r) == 1
    ensures r <= d < r + 7
  {
    var w := DayOfWeek(d);
    assert d + 4 == 7 * ((d + 4) / 7) + w;
    d - DaysToMonday(d)
  }

  /**
   The week bucket of `d` relative to a range that starts on `rangeStart`:
   weeks run Monday to Sunday, bucket 1 is the week holding `rangeStart`,
   and any date before that week's Monday also gets bucket 1. The
   `Math.floor(daysDiff / 7)` of `getWeekNumberInRange` is Dafny's `/`,
   which agrees with floor division for a positive divisor.
   */
  function WeekInRange(d: int, rangeStart: int): (r: int)
    ensures r >= 1
    ensures d < MondayOf(rangeStart) ==> r == 1
    ensures d >= MondayOf(rangeStart) ==>
              MondayOf(rangeStart) + 7 * (r - 1) <= d < MondayOf(rangeStart) + 7 * r
  {
    var firstMonday := MondayOf(rangeStart);
    var daysDiff := d - firstMonday;
    var weekNumber := daysDiff / 7 + 1;
    if weekNumber > 0 then weekNumber else 1
  }

  /**
   From the range's first Monday on, the bucket is the number of whole weeks
   between the range's Monday and the Monday of `d`, plus one.
   */
  lemma WeekOfMonday(d: int, rangeStart: int)
    requires d >= MondayOf(rangeStart)
    ensures 7 * (WeekInRange(d, rangeStart) - 1) == MondayOf(d) - MondayOf(rangeStart)
  {
    var fm, md, r := MondayOf(rangeStart), MondayOf(d), WeekInRange(d, rangeStart);
    SameWeekday(md, fm);
    var q := (md - fm) / 7;
    assert md - fm == 7 * q;
    assert fm + 7 * (r - 1) <= d < fm + 7 * r;
    assert md <= d < md + 7;
    assert fm + 7 * q <= d < fm + 7 * q + 7;
    assert q == r - 1;
  }

  /** Two dates of the same Monday-to-Sunday week share a bucket. */
  lemma SameWeekSameBucket(d1: int, d2: int, rangeStart: int)
    requires MondayOf(d1) == MondayOf(d2)
    ensures WeekInRange(d1, rangeStart) == WeekInRange(d2, rangeStart)
  {
    var fm := MondayOf(rangeStart);
    // a week that reaches the range's Monday starts on or after it
    if d1 >= fm { WeekOfMonday(d1, rangeStart); }
    if d2 >= fm { WeekOfMonday(d2, rangeStart); }
  }

  /** Buckets never decrease as the date advances. */
  lemma WeekMonotone(d1: int, d2: int, rangeStart: int)
    requires d1 <= d2
    ensures WeekInRange(d1, rangeStart) <= WeekInRange(d2, rangeStart)
  {
    var fm, r1, r2 := MondayOf(rangeStart), WeekInRange(d1, rangeStart), WeekInRange(d2, rangeStart);
    if d1 >= fm {
      assert fm + 7 * (r1 - 1) <= d1 <= d2 < fm + 7 * r2;
    }
  }

  /** The same weekday one week later lies in the next bucket. */
  lemma NextWeekNextBucket(d: int, rangeStart: int)
    requires d >= MondayOf(rangeStart)
    ensures WeekInRange(d + 7, rangeStart) == WeekInRange(d, rangeStart) + 1
  {
    var fm, r1, r2 := MondayOf(rangeStart), WeekInRange(d, rangeStart), WeekInRange(d + 7, rangeStart);
    assert fm + 7 * (r1 - 1) <= d < fm + 7 * r1;
    assert fm + 7 * (r2 - 1) <= d + 7 < fm + 7 * r2;
  }

  /** The range's first day always falls in bucket 1. */
  lemma RangeStartIsBucketOne(rangeStart: int)
    ensures WeekInRange(rangeStart, rangeStart) == 1
  {
    var fm := MondayOf(rangeStart);
    assert fm <= rangeStart < fm + 7;
  }

  /**
   A range that starts on Wednesday 2024-01-03 (day 19725): its first Monday
   is 2024-01-01 (day 19723); Monday 1 to Sunday 7 January form bucket 1 and
   Monday 8 January opens bucket 2.
   */
  lemma WednesdayStartExample()
    ensures DayOfWeek(19725) == 3
    ensures MondayOf(19725) == 19723
    ensures forall d :: 19723 <= d <= 19729 ==> WeekInRange(d, 19725) == 1
    ensures WeekInRange(19730, 19725) == 2
  {
    assert MondayOf(19725) == 19723;
    forall d | 19723 <= d <= 19729
      ensures WeekInRange(d, 19725) == 1
    {
      assert (d - 19723) / 7 == 0;
    }
  }
}

=== FILE: edit_gate.dfy ===
/**
 The gate in front of a manual edit of one schedule cell (`assignShift`),
 and the same two checks as the shift picker evaluates them to enable or
 disable its buttons (`openShiftModal`).

 Both rules read the committed store:
 - "918" may not follow a "1500" on the previous calendar day;
 - "Off" may not be written when the person already has another "Off" in
   the same week bucket of the displayed range, unless the cell already
   holds "Off".
 */
module EditGate {
  import opened Shifts
  import opened Store
  import opened Dates

  datatype Refusal = LateBeforeEarly | WeeklyRestTaken

  datatype Verdict = Allowed | Refused(reason: Refusal)

  /** Outcome of a manual edit: the updated store, or the reason it was refused. */
  datatype EditResult = Accepted(store: Schedule) | Rejected(reason: Refusal)

  /**
   The number of days of `days`, other than `date`, that lie in the bucket
   of `date` and whose cell for `person` holds `Off`.
   */
  function OffsInBucket(s: Schedule, team: TeamId, person: PersonId, date: int,
                        rangeStart: int, days: seq<int>): (r: nat)
    ensures r <= |days|
    // the edited day itself never counts
    ensures date in days ==> r < |days|
  {
    if |days| == 0 then 0
    else
      var d := days[0];
      var here := if WeekInRange(d, rangeStart) == WeekInRange(date, rangeStart) && d != date
                     && GetShift(s, Key(team, d, person)) == Some(Off) then 1 else 0;
      here + OffsInBucket(s, team, person, date, rangeStart, days[1..])
  }

  /** Some other day of `days` in the bucket of `date` holds `Off`. */
  ghost predicate RestElsewhere(s: Schedule, team: TeamId, person: PersonId, date: int,
                                rangeStart: int, days: seq<int>)
  {
    exists d :: d in days && d != date && WeekInRange(d, rangeStart) == WeekInRange(date, rangeStart)
                && GetShift(s, Key(team, d, person)) == Some(Off)
  }

  /** The count is positive exactly when such another rest day exists. */
  lemma {:induction false} OffsInBucketPositive(s: Schedule, team: TeamId, person: PersonId, date: int,
                                                rangeStart: int, days: seq<int>)
    ensures OffsInBucket(s, team, person, date, rangeStart, days) >= 1
            <==> RestElsewhere(s, team, person, date, rangeStart, days)
  {
    if |days| > 0 {
      OffsInBucketPositive(s, team, person, date, rangeStart, days[1..]);
      if RestElsewhere(s, team, person, date, rangeStart, days[1..]) {
        var d :| d in days[1..] && d != date && WeekInRange(d, rangeStart) == WeekInRange(date, rangeStart)
                 && GetShift(s, Key(team, d, person)) == Some(Off);
        assert d in days;
      }
      if RestElsewhere(s, team, person, date, rangeStart, days) {
        var d :| d in days && d != date && WeekInRange(d, rangeStart) == WeekInRange(date, rangeStart)
                 && GetShift(s, Key(team, d, person)) == Some(Off);
        if d != days[0] {
          assert d in days[1..];
        }
      }
    }
  }

  /** The rule check of a manual edit of cell (team, date, person) to `shift`. */
  function CanAssign(s: Schedule, team: TeamId, person: PersonId, date: int,
                     rangeStart: int, rangeEnd: int, shift: Option<ShiftCode>): (v: Verdict)
    ensures shift == Some(Shift918) ==>
              (v.Refused? <==> GetShift(s, Key(team, date - 1, person)) == Some(Shift1500))
    ensures shift == Some(Off) ==>
              (v.Refused? <==> GetShift(s, Key(team, date, person)) != Some(Off)
                               && exists d :: rangeStart <= d <= rangeEnd && d != date
                                              && WeekInRange(d, rangeStart) == WeekInRange(date, rangeStart)
                                              && GetShift(s, Key(team, d, person)) == Some(Off))
    ensures shift != Some(Shift918) && shift != Some(Off) ==> v == Allowed
    ensures v.Refused? ==> (v.reason == LateBeforeEarly <==> shift == Some(Shift918))
  {
    var days := DaysBetween(rangeStart, rangeEnd);
    OffsInBucketPositive(s, team, person, date, rangeStart, days);
    if shift == Some(Shift918) && GetShift(s, Key(team, date - 1, person)) == Some(Shift1500) then
      Refused(LateBeforeEarly)
    else if shift == Some(Off) && GetShift(s, Key(team, date, person)) != Some(Off)
            && OffsInBucket(s, team, person, date, rangeStart, days) >= 1 then
      Refused(WeeklyRestTaken)
    else
      Allowed
  }

  /**
   A manual edit: refused by the rules, or written to the store. An accepted
   edit changes the one cell and nothing else.
   */
  function AssignShift(s: Schedule, team: TeamId, person: PersonId, date: int,
                       rangeStart: int, rangeEnd: int, shift: Option<ShiftCode>): (r: EditResult)
    ensures r.Accepted? <==> CanAssign(s, team, person, date, rangeStart, rangeEnd, shift) == Allowed
    ensures r.Rejected? ==> CanAssign(s, team, person, date, rangeStart, rangeEnd, shift) == Refused(r.reason)
    ensures r.Accepted? ==> GetShift(r.store, Key(team, date, person)) == shift
    ensures r.Accepted? ==> forall k :: k != Key(team, date, person) ==> GetShift(r.store, k) == GetShift(s, k)
  {
    match CanAssign(s, team, person, date, rangeStart, rangeEnd, shift)
    case Allowed => Accepted(SetShift(s, Key(team, date, person), shift))
    case Refused(why) => Rejected(why)
  }

  /** Which of the two rule-bound buttons of the shift picker are enabled. */
  datatype Buttons = Buttons(enable918: bool, enableOff: bool)

  /**
   The button states the shift picker computes when it opens on a cell;
   they agree with what the gate would decide for the same cell.
   */
  function ModalButtons(s: Schedule, team: TeamId, person: PersonId, date: int,
                        rangeStart: int, rangeEnd: int): (b: Buttons)
    ensures b.enable918 <==> CanAssign(s, team, person, date, rangeStart, rangeEnd, Some(Shift918)).Allowed?
    ensures b.enableOff <==> CanAssign(s, team, person, date, rangeStart, rangeEnd, Some(Off)).Allowed?
  {
    var prevShift := GetShift(s, Key(team, date - 1, person));
    var days := DaysBetween(rangeStart, rangeEnd);
    var weeklyOffCount := OffsInBucket(s, team, person, date, rangeStart, days);
    var currentShift := GetShift(s, Key(team, date, person));
    Buttons(prevShift != Some(Shift1500), !(currentShift != Some(Off) && weeklyOffCount >= 1))
  }
}

=== FILE: generator.dfy ===
/**
 The generator (`generateScheduleForTeam`): for every day of the range, in
 order, an initial pass over the persons in a shuffled order, the repair
 passes, and the commit of the day's picks to the store.

 The shuffle of each day and the random draws of the pick policy are
 parameters: `shuffle(k)` is the processing order of the k-th day of the
 range (a permutation of the person positions) and `rand(j)` the draw
 consumed by the j-th call of the pick policy in the run, counting from 0.
 */
module Generator {
  import opened Shifts
  import opened Dates
  import opened Store
  import opened Selection
  import opened RunState
  import opened Repair

  /** `order` lists every person position 0 .. n-1 exactly once. */
  predicate IsPermutation(order: seq<nat>, n: nat) {
    && |order| == n
    && Distinct(order)
    && (forall m :: 0 <= m < |order| ==> order[m] < n)
    && (forall i: nat :: i < n ==> i in order)
  }

  /**
   How a day was decided: which rule decided each person's initial pick,
   whom the all-off guard moved, and every person's state at the start of
   the day.
   */
  datatype DayReport = DayReport(branches: seq<Branch>, guardPick: Option<nat>, before: seq<PersonState>)

  /** The relief branches' condition: a work cap reached and the bucket's rest day used. */
  predicate ReliefDue(ps: PersonState, wk: int) {
    (ps.streak >= 6 || Get(ps.weekWork, wk) >= 6) && Get(ps.weekOff, wk) >= 1
  }

  /**
   What the initial pass establishes for a person it has handled: a
   generated pick that is also the person's previous shift, rest tallies that
   only grew in today's bucket, no "918" after a "1500" except under a
   relief branch, and every rest day counted except a stuck one. A relief
   branch is taken only when its condition holds, and a stuck rest day only
   follows a "1500" in a bucket whose rest day is used.
   */
  ghost predicate Settled(before: PersonState, after: PersonState, pick: Option<ShiftCode>, b: Branch, wk: int) {
    && pick.Some? && Generated(pick.value)
    && after.previous == pick
    && OffGrew(before, after, wk)
    && (pick == Some(Shift918) && before.previous == Some(Shift1500) ==> IsRelief(b))
    && (IsRelief(b) ==> ReliefDue(before, wk))
    && (b == AfterLateStuck ==>
          pick == Some(Off) && before.previous == Some(Shift1500) && Get(before.weekOff, wk) >= 1)
    && (pick == Some(Off) && b != AfterLateStuck ==>
          Get(before.weekOff, wk) < 1 && Get(after.weekOff, wk) == Get(before.weekOff, wk) + 1)
  }

  /**
   Filling an empty slot with a pick the caps allow keeps the day's tallies
   equal to the counts of the picks, and keeps "1322" with at most one holder.
   */
  lemma {:induction false} FillKeepsTallies(temp: seq<Option<ShiftCode>>, me: nat, s: ShiftCode, day1322: int, day1500: int)
    requires me < |temp| && temp[me] == None
    requires day1322 == Count(temp, Shift1322) && day1500 == Count(temp, Shift1500)
    requires AtMostOne(temp, Shift1322)
    requires s == Shift1322 ==> !Capped1322(day1322, temp, me)
    requires s == Shift1500 ==> !Capped1500(day1500, temp, me)
    ensures Count(temp[me := Some(s)], Shift1322) == day1322 + (if s == Shift1322 then 1 else 0)
    ensures Count(temp[me := Some(s)], Shift1500) == day1500 + (if s == Shift1500 then 1 else 0)
    ensures AtMostOne(temp[me := Some(s)], Shift1322)
    // the running tally and the other persons' picks both count the same picks
    ensures s == Shift1500 ==> Count(temp, Shift1500) <= 1
  {
    TallySet(temp, me, Some(s), Shift1322, -1);
    TallySet(temp, me, Some(s), Shift1500, -1);
    if s == Shift1322 {
      TallySkipEmpty(temp, Shift1322, me);
      CountZero(temp, Shift1322);
    }
    if s == Shift1500 {
      TallySkipEmpty(temp, Shift1500, me);
    }
  }

  /**
   The initial pass for the person at position `me`, whose slot is still
   empty: the pick lands in that slot and nowhere else.
   */
  method HandlePerson(d: Day, me: nat, wk: int, rand: nat -> nat, calls: nat)
    returns (d': Day, b: Branch, calls': nat)
    requires Sized(d) && me < |d.temp| && d.temp[me] == None
    requires d.day1322 == Count(d.temp, Shift1322) && d.day1500 == Count(d.temp, Shift1500)
    requires AtMostOne(d.temp, Shift1322)
    ensures Sized(d') && |d'.temp| == |d.temp|
    ensures forall i :: 0 <= i < |d.temp| && i != me ==>
              d'.temp[i] == d.temp[i] && d'.people[i] == d.people[i] && d'.counts[i] == d.counts[i]
    ensures Settled(d.people[me], d'.people[me], d'.temp[me], b, wk)
    ensures d'.day1322 == Count(d'.temp, Shift1322) && d'.day1500 == Count(d'.temp, Shift1500)
    ensures AtMostOne(d'.temp, Shift1322)
    ensures d'.temp[me] == Some(Shift1500) ==> Count(d.temp, Shift1500) <= 1
    ensures Count(d.temp, Shift1500) <= 2 ==> Count(d'.temp, Shift1500) <= 2
  {
    var st := InitialStep(d.people[me], me, wk, d.day1322, d.day1500, d.counts, d.temp, rand, calls);
    FillKeepsTallies(d.temp, me, st.shift, d.day1322, d.day1500);
    d' := Day(d.temp[me := Some(st.shift)], d.people[me := st.person], d.counts[me := st.counts],
              st.day1322, st.day1500);
    b := st.branch;
    calls' := st.calls;
  }

  /**
   The initial pass has handled the persons `order[..m]`: they are settled,
   and everybody else is untouched with an empty slot.
   */
  ghost predicate Progress(people: seq<PersonState>, d: Day, branches: seq<Branch>, order: seq<nat>, m: nat, wk: int)
    requires Sized(d) && |d.temp| == |people| && |branches| == |people| && m <= |order|
  {
    && (forall i :: 0 <= i < |people| && i !in order[..m] ==> d.temp[i] == None && d.people[i] == people[i])
    && (forall i :: 0 <= i < |people| && i in order[..m] ==> Settled(people[i], d.people[i], d.temp[i], branches[i], wk))
  }

  /** Handling the next person of the order extends the progress by that person. */
  lemma ProgressStep(people: seq<PersonState>, d: Day, d': Day, branches: seq<Branch>, b: Branch,
                     order: seq<nat>, m: nat, wk: int)
    requires Sized(d) && |d.temp| == |people| && |branches| == |people| && m < |order|
    requires Distinct(order) && order[m] < |people|
    requires Progress(people, d, branches, order, m, wk)
    requires Sized(d') && |d'.temp| == |d.temp|
    requires forall i :: 0 <= i < |d.temp| && i != order[m] ==> d'.temp[i] == d.temp[i] && d'.people[i] == d.people[i]
    requires Settled(d.people[order[m]], d'.people[order[m]], d'.temp[order[m]], b, wk)
    ensures Progress(people, d', branches[order[m] := b], order, m + 1, wk)
  {
    var me := order[m];
    assert order[..m + 1] == order[..m] + [me];
    assert me !in order[..m] by {
      assert forall j :: 0 <= j < m ==> order[..m][j] == order[j] != me;
    }
  }

  /**
   The initial pass of one day: every person, in `order`, gets the shift the
   forcing rules and the pick policy choose, with the day's tallies kept in
   step with the picks.
   */
  method InitialPass(people: seq<PersonState>, counts: seq<Counts>, wk: int, order: seq<nat>,
                     rand: nat -> nat, calls: nat)
    returns (d: Day, branches: seq<Branch>, calls': nat)
    requires |counts| == |people| && IsPermutation(order, |people|)
    ensures Sized(d) && |d.temp| == |people| && |branches| == |people|
    ensures forall i :: 0 <= i < |people| ==> Settled(people[i], d.people[i], d.temp[i], branches[i], wk)
    ensures d.day1322 == Count(d.temp, Shift1322) && d.day1500 == Count(d.temp, Shift1500)
    ensures AtMostOne(d.temp, Shift1322)
    // the cap of four "1500" bites at two: the day's tally and the picks are both counted
    ensures Count(d.temp, Shift1500) <= 2
  {
    var n := |people|;
    d := Day(seq(n, _ => None), people, counts, 0, 0);
    branches := seq(n, _ => Regular);
    calls' := calls;
    CountZero(d.temp, Shift1322);
    CountZero(d.temp, Shift1500);
    var m := 0;
    while m < n
      invariant 0 <= m <= n
      invariant Sized(d) && |d.temp| == n && |branches| == n
      invariant d.day1322 == Count(d.temp, Shift1322) && d.day1500 == Count(d.temp, Shift1500)
      invariant AtMostOne(d.temp, Shift1322)
      invariant Count(d.temp, Shift1500) <= 2
      invariant Progress(people, d, branches, order, m, wk)
    {
      var me := order[m];
      assert me !in order[..m] by {
        assert forall j :: 0 <= j < m ==> order[..m][j] == order[j] != me;
      }
      var d', b;
      d', b, calls' := HandlePerson(d, me, wk, rand, calls');
      ProgressStep(people, d, d', branches, b, order, m, wk);
      d, branches := d', branches[me := b];
      m := m + 1;
    }
    assert order[..n] == order;
  }

  /**
   The repair passes keep what the initial pass settled: they only write
   working shifts, never touch the rest tallies, and the only "918" they can
   write is the guard's.
   */
  lemma RepairsKeepSettled(people: seq<PersonState>, d0: Day, branches: seq<Branch>, g: GuardResult, wk: int)
    requires Sized(d0) && Sized(g.day) && |d0.temp| == |people| && |g.day.temp| == |people| && |branches| == |people|
    requires forall i :: 0 <= i < |people| ==> Settled(people[i], d0.people[i], d0.temp[i], branches[i], wk)
    requires SameOffs(d0, g.day)
    requires forall i :: 0 <= i < |people| ==>
               || g.day.temp[i] == d0.temp[i]
               || g.day.temp[i] == Some(Shift1322)
               || g.day.temp[i] == Some(Shift1500)
               || (g.pick == Some(i) && g.day.temp[i].Some? && IsWork(g.day.temp[i].value))
    ensures forall i :: 0 <= i < |people| ==> g.day.temp[i].Some? && Generated(g.day.temp[i].value)
    ensures forall i :: 0 <= i < |people| ==> OffGrew(people[i], g.day.people[i], wk)
    ensures forall i :: 0 <= i < |people| && g.day.temp[i] == Some(Shift918) && people[i].previous == Some(Shift1500)
              ==> IsRelief(branches[i]) || g.pick == Some(i)
    ensures forall i :: 0 <= i < |people| && g.day.temp[i] == Some(Off) && branches[i] != AfterLateStuck
              ==> Get(people[i].weekOff, wk) < 1 && Get(g.day.people[i].weekOff, wk) == Get(people[i].weekOff, wk) + 1
  {
    forall i | 0 <= i < |people|
      ensures g.day.temp[i].Some? && Generated(g.day.temp[i].value)
      ensures OffGrew(people[i], g.day.people[i], wk)
      ensures g.day.temp[i] == Some(Off) && branches[i] != AfterLateStuck
              ==> Get(people[i].weekOff, wk) < 1 && Get(g.day.people[i].weekOff, wk) == Get(people[i].weekOff, wk) + 1
    {
      assert Settled(people[i], d0.people[i], d0.temp[i], branches[i], wk);
      assert g.day.people[i].weekOff == d0.people[i].weekOff;
    }
  }

  /** With tallies that start from zero, every rest day the initial pass picked is counted. */
  lemma InitialOffsRested(people: seq<PersonState>, d0: Day, branches: seq<Branch>, wk: int)
    requires Sized(d0) && |d0.temp| == |people| && |branches| == |people|
    requires forall i :: 0 <= i < |people| ==> Settled(people[i], d0.people[i], d0.temp[i], branches[i], wk)
    requires forall i :: 0 <= i < |people| ==> Get(people[i].weekOff, wk) >= 0
    ensures OffsRested(d0, wk)
  {
    forall i | 0 <= i < |people| && d0.temp[i] == Some(Off)
      ensures Get(d0.people[i].weekOff, wk) >= 1
    {
      assert Settled(people[i], d0.people[i], d0.temp[i], branches[i], wk);
    }
  }

  /** Person `i` has reached a work cap of bucket `wk`: six working days in it, or six in a row. */
  predicate Capped(d: Day, wk: int, i: nat)
    requires Sized(d) && i < |d.temp|
  {
    Get(d.people[i].weekWork, wk) >= 6 || d.people[i].streak >= 6
  }

  /** Person `i` has reached a work cap or used the rest day of bucket `wk`. */
  predicate CappedOrRested(d: Day, wk: int, i: nat)
    requires Sized(d) && i < |d.temp|
  {
    Capped(d, wk, i) || Get(d.people[i].weekOff, wk) >= 1
  }

  /**
   Over a processing order that lists every person, the repairs' end-of-day
   searches finding nobody means every person is capped (or has rested).
   */
  lemma EndOfDayShows(d: Day, order: seq<nat>, wk: int)
    requires Sized(d) && IsPermutation(order, |d.temp|)
    requires |d.temp| > 0 && Count(d.temp, Shift1322) == 0 ==> No1322Eligible(d, order, wk)
    requires |d.temp| > 0 && AllOff(d.temp) ==> NoGuardEligible(d, order, wk)
    ensures Count(d.temp, Shift1322) == 0 ==> forall i :: 0 <= i < |d.temp| ==> CappedOrRested(d, wk, i)
    ensures AllOff(d.temp) ==> forall i :: 0 <= i < |d.temp| ==> Capped(d, wk, i)
  {
    if Count(d.temp, Shift1322) == 0 {
      forall i | 0 <= i < |d.temp| ensures CappedOrRested(d, wk, i) {
        assert i in order;
        var m :| 0 <= m < |order| && order[m] == i;
        CountZero(d.temp, Shift1322);
        assert !Eligible1322(d, wk, order[m]);
      }
    }
    if AllOff(d.temp) {
      forall i | 0 <= i < |d.temp| ensures Capped(d, wk, i) {
        assert i in order;
        var m :| 0 <= m < |order| && order[m] == i;
        assert !GuardEligible(d, wk, order[m]);
      }
    }
  }

  /**
   What a day generated from the states `people` hands on to the run: a
   generated pick per person that is also their previous shift, one "1322"
   at most, rest tallies that only grow in today's bucket, and labels tied to
   the states the day started from.
   */
  ghost predicate DayOutcome(people: seq<PersonState>, d: Day, report: DayReport, wk: int) {
    && Sized(d) && |d.temp| == |people| && |report.branches| == |people| && report.before == people
    && (forall i :: 0 <= i < |people| ==> d.temp[i].Some? && Generated(d.temp[i].value))
    && Synced(d) && AtMostOne(d.temp, Shift1322)
    && (forall i :: 0 <= i < |people| ==> OffGrew(people[i], d.people[i], wk))
    && (forall i :: 0 <= i < |people| && d.temp[i] == Some(Shift918) && people[i].previous == Some(Shift1500)
          ==> IsRelief(report.branches[i]) || report.guardPick == Some(i))
    && (forall i :: 0 <= i < |people| && d.temp[i] == Some(Off) && report.branches[i] != AfterLateStuck
          ==> Get(people[i].weekOff, wk) < 1 && Get(d.people[i].weekOff, wk) == Get(people[i].weekOff, wk) + 1)
    && (forall i :: 0 <= i < |people| && IsRelief(report.branches[i]) ==> ReliefDue(people[i], wk))
    && (forall i :: 0 <= i < |people| && report.branches[i] == AfterLateStuck ==>
          people[i].previous == Some(Shift1500) && Get(people[i].weekOff, wk) >= 1)
    && ((forall i :: 0 <= i < |people| ==> Get(people[i].weekOff, wk) >= 0) && report.guardPick.Some? ==>
          forall j :: 0 <= j < |people| && j != report.guardPick.value ==> d.temp[j] == Some(Off))
  }

  /**
   One day of the run: the initial pass, then pass A, pass B, the all-off
   guard and pass C. Every person ends the day with a generated pick that is
   also their previous shift, and at most one person holds "1322".
   */
  method RunDay(people: seq<PersonState>, counts: seq<Counts>, wk: int, order: seq<nat>,
                rand: nat -> nat, calls: nat)
    returns (d: Day, report: DayReport, calls': nat)
    requires |counts| == |people| && IsPermutation(order, |people|)
    ensures Sized(d) && |d.temp| == |people| && |report.branches| == |people|
    ensures forall i :: 0 <= i < |people| ==> d.temp[i].Some? && Generated(d.temp[i].value)
    ensures Synced(d)
    ensures AtMostOne(d.temp, Shift1322)
    ensures Count(d.temp, Shift1500) <= 3
    ensures forall i :: 0 <= i < |people| ==> OffGrew(people[i], d.people[i], wk)
    // "918" after a "1500" only under a relief branch or from the guard
    ensures forall i :: 0 <= i < |people| && d.temp[i] == Some(Shift918) && people[i].previous == Some(Shift1500)
              ==> IsRelief(report.branches[i]) || report.guardPick == Some(i)
    // a rest day is counted in a bucket that had none, unless it is a stuck one
    ensures forall i :: 0 <= i < |people| && d.temp[i] == Some(Off) && report.branches[i] != AfterLateStuck
              ==> Get(people[i].weekOff, wk) < 1 && Get(d.people[i].weekOff, wk) == Get(people[i].weekOff, wk) + 1
    // the labels are tied to the state the day started from
    ensures report.before == people
    ensures forall i :: 0 <= i < |people| && IsRelief(report.branches[i]) ==> ReliefDue(people[i], wk)
    ensures forall i :: 0 <= i < |people| && report.branches[i] == AfterLateStuck ==>
              people[i].previous == Some(Shift1500) && Get(people[i].weekOff, wk) >= 1
    // with tallies that start from zero, the guard's rescue takes nobody past six working days,
    // and the day ends with that person working and everybody else resting
    ensures report.guardPick.Some? ==> report.guardPick.value < |people|
    ensures (forall i :: 0 <= i < |people| ==> Get(people[i].weekOff, wk) >= 0) && report.guardPick.Some? ==>
              var p := report.guardPick.value;
              && Get(d.people[p].weekWork, wk) <= 6 && d.people[p].streak <= 6
              && d.temp[p].Some? && IsWork(d.temp[p].value)
              && forall j :: 0 <= j < |people| && j != p ==> d.temp[j] == Some(Off)
    // the day ends without "1322" only when everybody has reached a work cap or used the bucket's rest day
    ensures Count(d.temp, Shift1322) == 0 ==> forall i :: 0 <= i < |people| ==> CappedOrRested(d, wk, i)
    // the day ends with everybody resting only when everybody has reached a work cap
    ensures AllOff(d.temp) ==> forall i :: 0 <= i < |people| ==> Capped(d, wk, i)
    // all of the above that the run carries on, in one
    ensures DayOutcome(people, d, report, wk)
  {
    var d0, branches, c0 := InitialPass(people, counts, wk, order, rand, calls);
    assert Synced(d0);
    var g := Repairs(d0, order, wk, rand, c0);
    RepairsKeepSettled(people, d0, branches, g, wk);
    if forall i :: 0 <= i < |people| ==> Get(people[i].weekOff, wk) >= 0 {
      InitialOffsRested(people, d0, branches, wk);
      GuardRescueStands(d0, order, wk, rand, c0);
    }
    d := g.day;
    EndOfDayShows(d, order, wk);
    report := DayReport(branches, g.pick, people);
    calls' := g.calls;
  }

  /** The team's person ids are pairwise different. */
  predicate DistinctIds(persons: seq<PersonId>) {
    forall i, j :: 0 <= i < j < |persons| ==> persons[i] != persons[j]
  }

  /**
   Commits a day: each person's pick is written to their cell of `date`
   (an absent pick clears the cell); no other cell changes.
   */
  method CommitDay(s: Schedule, team: TeamId, date: int, persons: seq<PersonId>, temp: seq<Option<ShiftCode>>)
    returns (r: Schedule)
    requires |temp| == |persons| && DistinctIds(persons)
    ensures forall i :: 0 <= i < |persons| ==> GetShift(r, Key(team, date, persons[i])) == temp[i]
    ensures forall k: Key :: !(k.team == team && k.date == date && k.person in persons) ==> GetShift(r, k) == GetShift(s, k)
  {
    r := s;
    var i := 0;
    while i < |persons|
      invariant 0 <= i <= |persons|
      invariant forall j :: 0 <= j < i ==> GetShift(r, Key(team, date, persons[j])) == temp[j]
      invariant forall k: Key :: !(k.team == team && k.date == date && k.person in persons[..i]) ==>
                  GetShift(r, k) == GetShift(s, k)
    {
      r := SetShift(r, Key(team, date, persons[i]), temp[i]);
      assert persons[..i + 1] == persons[..i] + [persons[i]];
      i := i + 1;
    }
    assert persons[..|persons|] == persons;
  }

  // ---- what a run keeps for the days it has committed ----

  /** Only the team's cells of the first `K` days of the range differ from `s0`. */
  ghost predicate FrameKept(s0: Schedule, s: Schedule, team: TeamId, persons: seq<PersonId>, start: int, K: int) {
    forall key: Key :: !(key.team == team && start <= key.date < start + K && key.person in persons) ==>
      GetShift(s, key) == GetShift(s0, key)
  }

  /** Every cell of the first `K` days holds a generated code. */
  ghost predicate Covered(s: Schedule, team: TeamId, persons: seq<PersonId>, start: int, K: int) {
    forall date, i :: start <= date < start + K && 0 <= i < |persons| ==>
      GetShift(s, Key(team, date, persons[i])).Some? && Generated(GetShift(s, Key(team, date, persons[i])).value)
  }

  /** No day among the first `K` has two persons on "1322". */
  ghost predicate Single1322(s: Schedule, team: TeamId, persons: seq<PersonId>, start: int, K: int) {
    forall date, i, j :: (start <= date < start + K && 0 <= i < |persons| && 0 <= j < |persons|
      && GetShift(s, Key(team, date, persons[i])) == Some(Shift1322)
      && GetShift(s, Key(team, date, persons[j])) == Some(Shift1322)) ==> i == j
  }

  /** A "918" right after a "1500" within the first `K` days is excused by that day's report. */
  ghost predicate LateEarlyExcused(s: Schedule, team: TeamId, persons: seq<PersonId>, start: int, K: int,
                                   reports: seq<DayReport>)
    requires |reports| == K && forall k :: 0 <= k < K ==> |reports[k].branches| == |persons|
  {
    forall date, i :: start < date < start + K && 0 <= i < |persons|
      && GetShift(s, Key(team, date - 1, persons[i])) == Some(Shift1500)
      && GetShift(s, Key(team, date, persons[i])) == Some(Shift918)
      ==> IsRelief(reports[date - start].branches[i]) || reports[date - start].guardPick == Some(i)
  }

  /** Every counted rest day of the first `K` days shows in its bucket's rest tally. */
  ghost predicate RestsTallied(s: Schedule, team: TeamId, persons: seq<PersonId>, start: int, K: int,
                               people: seq<PersonState>, reports: seq<DayReport>)
    requires |people| == |persons| && |reports| == K && forall k :: 0 <= k < K ==> |reports[k].branches| == |persons|
  {
    forall date, i :: start <= date < start + K && 0 <= i < |persons|
      && GetShift(s, Key(team, date, persons[i])) == Some(Off) && reports[date - start].branches[i] != AfterLateStuck
      ==> Get(people[i].weekOff, WeekInRange(date, start)) >= 1
  }

  /** No person has two counted rest days in one week bucket among the first `K` days. */
  ghost predicate OneRestPerBucket(s: Schedule, team: TeamId, persons: seq<PersonId>, start: int, K: int,
                                   reports: seq<DayReport>)
    requires |reports| == K && forall k :: 0 <= k < K ==> |reports[k].branches| == |persons|
  {
    forall d1, d2, i :: start <= d1 < d2 < start + K && 0 <= i < |persons|
      && WeekInRange(d1, start) == WeekInRange(d2, start)
      && GetShift(s, Key(team, d1, persons[i])) == Some(Off)
      && GetShift(s, Key(team, d2, persons[i])) == Some(Off)
      ==> reports[d1 - start].branches[i] == AfterLateStuck || reports[d2 - start].branches[i] == AfterLateStuck
  }

  /** `s'` is `s` with the day `date` of the team's persons set to `temp`. */
  ghost predicate Committed(s: Schedule, s': Schedule, team: TeamId, date: int, persons: seq<PersonId>,
                            temp: seq<Option<ShiftCode>>)
    requires |temp| == |persons|
  {
    && (forall i :: 0 <= i < |persons| ==> GetShift(s', Key(team, date, persons[i])) == temp[i])
    && (forall key: Key :: !(key.team == team && key.date == date && key.person in persons) ==>
          GetShift(s', key) == GetShift(s, key))
  }

  /** Committing a day of generated picks extends the covered days by one. */
  lemma CoveredStep(s: Schedule, s': Schedule, team: TeamId, persons: seq<PersonId>, start: int, K: nat,
                    temp: seq<Option<ShiftCode>>)
    requires |temp| == |persons| && Covered(s, team, persons, start, K)
    requires Committed(s, s', team, start + K, persons, temp)
    requires forall i :: 0 <= i < |persons| ==> temp[i].Some? && Generated(temp[i].value)
    ensures Covered(s', team, persons, start, K + 1)
  {
    forall date, i | start <= date < start + K && 0 <= i < |persons|
      ensures GetShift(s', Key(team, date, persons[i])) == GetShift(s, Key(team, date, persons[i]))
    {
    }
  }

  /** Committing a day with at most one "1322" keeps every committed day that way. */
  lemma Single1322Step(s: Schedule, s': Schedule, team: TeamId, persons: seq<PersonId>, start: int, K: nat,
                       temp: seq<Option<ShiftCode>>)
    requires |temp| == |persons| && Single1322(s, team, persons, start, K)
    requires Committed(s, s', team, start + K, persons, temp)
    requires AtMostOne(temp, Shift1322)
    ensures Single1322(s', team, persons, start, K + 1)
  {
    forall date, i | start <= date < start + K && 0 <= i < |persons|
      ensures GetShift(s', Key(team, date, persons[i])) == GetShift(s, Key(team, date, persons[i]))
    {
    }
  }

  /**
   Committing a day whose "918"-after-"1500" picks are excused keeps every
   such pair of consecutive committed days excused, the new day included.
   */
  lemma LateEarlyStep(s: Schedule, s': Schedule, team: TeamId, persons: seq<PersonId>, start: int, K: nat,
                      temp: seq<Option<ShiftCode>>, people: seq<PersonState>, reports: seq<DayReport>, report: DayReport)
    requires |temp| == |persons| && |people| == |persons| && |report.branches| == |persons|
    requires |reports| == K && forall k :: 0 <= k < K ==> |reports[k].branches| == |persons|
    requires LateEarlyExcused(s, team, persons, start, K, reports)
    requires Committed(s, s', team, start + K, persons, temp)
    requires K > 0 ==> forall i :: 0 <= i < |persons| ==>
               people[i].previous == GetShift(s, Key(team, start + K - 1, persons[i]))
    requires forall i :: 0 <= i < |persons| && temp[i] == Some(Shift918) && people[i].previous == Some(Shift1500)
               ==> IsRelief(report.branches[i]) || report.guardPick == Some(i)
    ensures LateEarlyExcused(s', team, persons, start, K + 1, reports + [report])
  {
    var all := reports + [report];
    forall date, i | start < date < start + K + 1 && 0 <= i < |persons|
      && GetShift(s', Key(team, date - 1, persons[i])) == Some(Shift1500)
      && GetShift(s', Key(team, date, persons[i])) == Some(Shift918)
      ensures IsRelief(all[date - start].branches[i]) || all[date - start].guardPick == Some(i)
    {
      assert GetShift(s', Key(team, date - 1, persons[i])) == GetShift(s, Key(team, date - 1, persons[i]));
      if date < start + K {
        assert GetShift(s', Key(team, date, persons[i])) == GetShift(s, Key(team, date, persons[i]));
        assert all[date - start] == reports[date - start];
      }
    }
  }

  /** Rest tallies only grow, so committed rest days stay counted after one more day. */
  lemma RestsTalliedStep(s: Schedule, s': Schedule, team: TeamId, persons: seq<PersonId>, start: int, K: nat,
                         temp: seq<Option<ShiftCode>>, people: seq<PersonState>, people': seq<PersonState>,
                         reports: seq<DayReport>, report: DayReport)
    requires |temp| == |persons| && |people| == |persons| && |people'| == |persons| && |report.branches| == |persons|
    requires |reports| == K && forall k :: 0 <= k < K ==> |reports[k].branches| == |persons|
    requires RestsTallied(s, team, persons, start, K, people, reports)
    requires Committed(s, s', team, start + K, persons, temp)
    requires forall i, w :: 0 <= i < |persons| ==> Get(people[i].weekOff, w) >= 0
    requires forall i :: 0 <= i < |persons| ==> OffGrew(people[i], people'[i], WeekInRange(start + K, start))
    requires forall i :: 0 <= i < |persons| && temp[i] == Some(Off) && report.branches[i] != AfterLateStuck
               ==> Get(people'[i].weekOff, WeekInRange(start + K, start))
                   == Get(people[i].weekOff, WeekInRange(start + K, start)) + 1
    ensures RestsTallied(s', team, persons, start, K + 1, people', reports + [report])
  {
    var all := reports + [report];
    forall date, i | start <= date < start + K && 0 <= i < |persons|
      ensures GetShift(s', Key(team, date, persons[i])) == GetShift(s, Key(team, date, persons[i]))
      ensures all[date - start] == reports[date - start]
      ensures Get(people'[i].weekOff, WeekInRange(date, start)) >= Get(people[i].weekOff, WeekInRange(date, start))
    {
    }
  }

  /**
   A new counted rest day is only placed in a bucket whose tally is still zero,
   so no earlier counted rest day shares its bucket.
   */
  lemma OneRestStep(s: Schedule, s': Schedule, team: TeamId, persons: seq<PersonId>, start: int, K: nat,
                    temp: seq<Option<ShiftCode>>, people: seq<PersonState>,
                    reports: seq<DayReport>, report: DayReport)
    requires |temp| == |persons| && |people| == |persons| && |report.branches| == |persons|
    requires |reports| == K && forall k :: 0 <= k < K ==> |reports[k].branches| == |persons|
    requires RestsTallied(s, team, persons, start, K, people, reports)
    requires OneRestPerBucket(s, team, persons, start, K, reports)
    requires Committed(s, s', team, start + K, persons, temp)
    requires forall i :: 0 <= i < |persons| && temp[i] == Some(Off) && report.branches[i] != AfterLateStuck
               ==> Get(people[i].weekOff, WeekInRange(start + K, start)) < 1
    ensures OneRestPerBucket(s', team, persons, start, K + 1, reports + [report])
  {
    var all := reports + [report];
    forall date, i | start <= date < start + K && 0 <= i < |persons|
      ensures GetShift(s', Key(team, date, persons[i])) == GetShift(s, Key(team, date, persons[i]))
      ensures all[date - start] == reports[date - start]
    {
    }
    forall d1, d2, i | start <= d1 < d2 < start + K + 1 && 0 <= i < |persons|
      && WeekInRange(d1, start) == WeekInRange(d2, start)
      && GetShift(s', Key(team, d1, persons[i])) == Some(Off)
      && GetShift(s', Key(team, d2, persons[i])) == Some(Off)
      ensures all[d1 - start].branches[i] == AfterLateStuck || all[d2 - start].branches[i] == AfterLateStuck
    {
    }
  }

  /** What a run keeps after committing its first `K` days. */
  ghost predicate RunKept(store: Schedule, r: Schedule, team: TeamId, persons: seq<PersonId>, start: int, K: nat,
                          people: seq<PersonState>, reports: seq<DayReport>)
  {
    && |people| == |persons| && |reports| == K
    && (forall k :: 0 <= k < K ==> |reports[k].branches| == |persons|)
    && FrameKept(store, r, team, persons, start, K)
    && Covered(r, team, persons, start, K)
    && Single1322(r, team, persons, start, K)
    && (K > 0 ==> forall i :: 0 <= i < |persons| ==>
          people[i].previous == GetShift(r, Key(team, start + K - 1, persons[i])))
    && LateEarlyExcused(r, team, persons, start, K, reports)
    && (forall i, w :: 0 <= i < |persons| ==> Get(people[i].weekOff, w) >= 0)
    && RestsTallied(r, team, persons, start, K, people, reports)
    && OneRestPerBucket(r, team, persons, start, K, reports)
  }

  /** Committing a day that `RunDay` produced extends what the run keeps by that day. */
  lemma RunKeptStep(store: Schedule, r: Schedule, r': Schedule, team: TeamId, persons: seq<PersonId>, start: int,
                    K: nat, people: seq<PersonState>, reports: seq<DayReport>, d: Day, report: DayReport)
    requires RunKept(store, r, team, persons, start, K, people, reports)
    requires Sized(d) && |d.temp| == |persons| && |report.branches| == |persons|
    requires Committed(r, r', team, start + K, persons, d.temp)
    requires forall i :: 0 <= i < |persons| ==> d.temp[i].Some? && Generated(d.temp[i].value)
    requires Synced(d) && AtMostOne(d.temp, Shift1322)
    requires forall i :: 0 <= i < |persons| ==> OffGrew(people[i], d.people[i], WeekInRange(start + K, start))
    requires forall i :: 0 <= i < |persons| && d.temp[i] == Some(Shift918) && people[i].previous == Some(Shift1500)
               ==> IsRelief(report.branches[i]) || report.guardPick == Some(i)
    requires forall i :: 0 <= i < |persons| && d.temp[i] == Some(Off) && report.branches[i] != AfterLateStuck
               ==> Get(people[i].weekOff, WeekInRange(start + K, start)) < 1
                   && Get(d.people[i].weekOff, WeekInRange(start + K, start))
                      == Get(people[i].weekOff, WeekInRange(start + K, start)) + 1
    ensures RunKept(store, r', team, persons, start, K + 1, d.people, reports + [report])
  {
    CoveredStep(r, r', team, persons, start, K, d.temp);
    Single1322Step(r, r', team, persons, start, K, d.temp);
    LateEarlyStep(r, r', team, persons, start, K, d.temp, people, reports, report);
    RestsTalliedStep(r, r', team, persons, start, K, d.temp, people, d.people, reports, report);
    OneRestStep(r, r', team, persons, start, K, d.temp, people, reports, report);
    forall i, w | 0 <= i < |persons|
      ensures Get(d.people[i].weekOff, w) >= 0
    {
      assert Get(d.people[i].weekOff, w) >= Get(people[i].weekOff, w);
    }
  }

  /** The reports of the first `K` days, one entry per person each. */
  predicate ReportsSized(persons: seq<PersonId>, K: nat, reports: seq<DayReport>) {
    && |reports| == K
    && forall k :: 0 <= k < K ==> |reports[k].branches| == |persons| && |reports[k].before| == |persons|
  }

  /** No rest tally of `b` is below that of `a`. */
  ghost predicate OffsNoLess(a: PersonState, b: PersonState) {
    forall w :: Get(b.weekOff, w) >= Get(a.weekOff, w)
  }

  /**
   The states the first `K` days started from: fresh on the first day, later
   with the cell of the day before as previous shift, and rest tallies that
   never shrink from one day to a later one, up to the current states `people`.
   */
  ghost predicate StartsTraced(r: Schedule, team: TeamId, persons: seq<PersonId>, start: int, K: nat,
                               people: seq<PersonState>, reports: seq<DayReport>)
    requires |people| == |persons| && ReportsSized(persons, K, reports)
  {
    && (K > 0 ==> forall i :: 0 <= i < |persons| ==> reports[0].before[i] == Fresh)
    && (forall k, i :: 0 < k < K && 0 <= i < |persons| ==>
          reports[k].before[i].previous == GetShift(r, Key(team, start + k - 1, persons[i])))
    && (forall k1, k2, i :: 0 <= k1 <= k2 < K && 0 <= i < |persons| ==>
          OffsNoLess(reports[k1].before[i], reports[k2].before[i]))
    && (forall k, i :: 0 <= k < K && 0 <= i < |persons| ==> OffsNoLess(reports[k].before[i], people[i]))
  }

  /**
   The labels of the first `K` days' reports hold what they claim: each
   relief branch had its condition, each stuck rest day followed a "1500"
   in a bucket whose rest day was used, and on a day of a guard rescue
   everybody else rests.
   */
  ghost predicate LabelsTied(r: Schedule, team: TeamId, persons: seq<PersonId>, start: int, K: nat,
                             reports: seq<DayReport>)
    requires ReportsSized(persons, K, reports)
  {
    && (forall k, i :: 0 <= k < K && 0 <= i < |persons| && IsRelief(reports[k].branches[i]) ==>
          ReliefDue(reports[k].before[i], WeekInRange(start + k, start)))
    && (forall k, i :: 0 <= k < K && 0 <= i < |persons| && reports[k].branches[i] == AfterLateStuck ==>
          && reports[k].before[i].previous == Some(Shift1500)
          && Get(reports[k].before[i].weekOff, WeekInRange(start + k, start)) >= 1)
    && (forall k, j :: 0 <= k < K && 0 <= j < |persons| && reports[k].guardPick.Some?
                       && j != reports[k].guardPick.value
          ==> GetShift(r, Key(team, start + k, persons[j])) == Some(Off))
  }

  lemma OffsNoLessTrans(a: PersonState, b: PersonState, c: PersonState)
    requires OffsNoLess(a, b) && OffsNoLess(b, c)
    ensures OffsNoLess(a, c)
  {
    forall w ensures Get(c.weekOff, w) >= Get(a.weekOff, w) {
      assert Get(b.weekOff, w) >= Get(a.weekOff, w);
    }
  }

  /** Committing a day extends the traced start states by the states `RunDay` started from. */
  lemma StartsTracedStep(r: Schedule, r': Schedule, team: TeamId, persons: seq<PersonId>, start: int, K: nat,
                         people: seq<PersonState>, people': seq<PersonState>, reports: seq<DayReport>,
                         temp: seq<Option<ShiftCode>>, report: DayReport)
    requires |people| == |persons| && |people'| == |persons| && |temp| == |persons|
    requires ReportsSized(persons, K, reports) && StartsTraced(r, team, persons, start, K, people, reports)
    requires K == 0 ==> forall i :: 0 <= i < |persons| ==> people[i] == Fresh
    requires K > 0 ==> forall i :: 0 <= i < |persons| ==>
               people[i].previous == GetShift(r, Key(team, start + K - 1, persons[i]))
    requires |report.branches| == |persons| && report.before == people
    requires Committed(r, r', team, start + K, persons, temp)
    requires forall i :: 0 <= i < |persons| ==> OffGrew(people[i], people'[i], WeekInRange(start + K, start))
    ensures ReportsSized(persons, K + 1, reports + [report])
    ensures StartsTraced(r', team, persons, start, K + 1, people', reports + [report])
  {
    var all := reports + [report];
    assert all[K] == report;
    assert forall k :: 0 <= k < K ==> all[k] == reports[k];
    forall date, i | start <= date < start + K && 0 <= i < |persons|
      ensures GetShift(r', Key(team, date, persons[i])) == GetShift(r, Key(team, date, persons[i]))
    {
    }
    forall k, i | 0 < k < K + 1 && 0 <= i < |persons|
      ensures all[k].before[i].previous == GetShift(r', Key(team, start + k - 1, persons[i]))
    {
      var date := start + k - 1;
      assert GetShift(r', Key(team, date, persons[i])) == GetShift(r, Key(team, date, persons[i]));
    }
    forall k1, k2, i | 0 <= k1 <= k2 < K + 1 && 0 <= i < |persons|
      ensures OffsNoLess(all[k1].before[i], all[k2].before[i])
    {
      if k2 == K && k1 < K {
        assert OffsNoLess(reports[k1].before[i], people[i]);
      }
    }
    forall k, i | 0 <= k < K + 1 && 0 <= i < |persons|
      ensures OffsNoLess(all[k].before[i], people'[i])
    {
      assert OffGrew(people[i], people'[i], WeekInRange(start + K, start));
      assert OffsNoLess(people[i], people'[i]);
      if k < K {
        OffsNoLessTrans(reports[k].before[i], people[i], people'[i]);
      }
    }
  }

  /** Committing a day whose labels hold keeps every committed day's labels holding. */
  lemma LabelsTiedStep(r: Schedule, r': Schedule, team: TeamId, persons: seq<PersonId>, start: int, K: nat,
                       reports: seq<DayReport>, temp: seq<Option<ShiftCode>>, report: DayReport)
    requires ReportsSized(persons, K, reports) && LabelsTied(r, team, persons, start, K, reports)
    requires |temp| == |persons| && |report.branches| == |persons| && |report.before| == |persons|
    requires Committed(r, r', team, start + K, persons, temp)
    requires forall i :: 0 <= i < |persons| && IsRelief(report.branches[i]) ==>
               ReliefDue(report.before[i], WeekInRange(start + K, start))
    requires forall i :: 0 <= i < |persons| && report.branches[i] == AfterLateStuck ==>
               && report.before[i].previous == Some(Shift1500)
               && Get(report.before[i].weekOff, WeekInRange(start + K, start)) >= 1
    requires report.guardPick.Some? ==>
               forall j :: 0 <= j < |persons| && j != report.guardPick.value ==> temp[j] == Some(Off)
    ensures ReportsSized(persons, K + 1, reports + [report])
    ensures LabelsTied(r', team, persons, start, K + 1, reports + [report])
  {
    var all := reports + [report];
    assert all[K] == report;
    forall k | 0 <= k < K ensures all[k] == reports[k] {
    }
    forall date, j | start <= date < start + K && 0 <= j < |persons|
      ensures GetShift(r', Key(team, date, persons[j])) == GetShift(r, Key(team, date, persons[j]))
    {
    }
  }

  /** Everything a run keeps and traces after committing its first `K` days. */
  ghost predicate RunSoFar(store: Schedule, r: Schedule, team: TeamId, persons: seq<PersonId>, start: int, K: nat,
                           people: seq<PersonState>, reports: seq<DayReport>)
  {
    && RunKept(store, r, team, persons, start, K, people, reports)
    && ReportsSized(persons, K, reports)
    && StartsTraced(r, team, persons, start, K, people, reports)
    && LabelsTied(r, team, persons, start, K, reports)
    && (K == 0 ==> forall i :: 0 <= i < |persons| ==> people[i] == Fresh)
  }

  /** Committing a day that `RunDay` produced from the current states extends the run by that day. */
  lemma RunSoFarStep(store: Schedule, r: Schedule, r': Schedule, team: TeamId, persons: seq<PersonId>, start: int,
                     K: nat, people: seq<PersonState>, reports: seq<DayReport>, d: Day, report: DayReport)
    requires RunSoFar(store, r, team, persons, start, K, people, reports)
    requires |people| == |persons| && DayOutcome(people, d, report, WeekInRange(start + K, start))
    requires Committed(r, r', team, start + K, persons, d.temp)
    ensures RunSoFar(store, r', team, persons, start, K + 1, d.people, reports + [report])
  {
    RunKeptStep(store, r, r', team, persons, start, K, people, reports, d, report);
    StartsTracedStep(r, r', team, persons, start, K, people, d.people, reports, d.temp, report);
    LabelsTiedStep(r, r', team, persons, start, K, reports, d.temp, report);
  }

  /** Generates and commits day `start + K` of a run. */
  method AdvanceDay(store: Schedule, r: Schedule, team: TeamId, persons: seq<PersonId>, start: int, K: nat,
                    people: seq<PersonState>, counts: seq<Counts>, reports: seq<DayReport>,
                    order: seq<nat>, rand: nat -> nat, calls: nat)
    returns (r': Schedule, people': seq<PersonState>, counts': seq<Counts>, reports': seq<DayReport>, calls': nat)
    requires DistinctIds(persons) && |counts| == |persons| && IsPermutation(order, |persons|)
    requires RunSoFar(store, r, team, persons, start, K, people, reports)
    ensures |counts'| == |persons|
    ensures RunSoFar(store, r', team, persons, start, K + 1, people', reports')
  {
    var wk := WeekInRange(start + K, start);
    var d, report;
    d, report, calls' := RunDay(people, counts, wk, order, rand, calls);
    r' := CommitDay(r, team, start + K, persons, d.temp);
    RunSoFarStep(store, r, r', team, persons, start, K, people, reports, d, report);
    people', counts', reports' := d.people, d.counts, reports + [report];
  }

  /** Everybody of the team but person `i` rests on `date`. */
  ghost predicate OthersRest(s: Schedule, team: TeamId, persons: seq<PersonId>, date: int, i: nat) {
    forall j :: 0 <= j < |persons| && j != i ==> GetShift(s, Key(team, date, persons[j])) == Some(Off)
  }

  /**
   Person `i` rests on `date` by the stuck fallback: the day before holds
   their "1500" and the rest day of the bucket was already used.
   */
  ghost predicate StuckRest(s: Schedule, team: TeamId, persons: seq<PersonId>, start: int,
                            reports: seq<DayReport>, date: int, i: nat)
  {
    && start < date && date - start < |reports|
    && i < |reports[date - start].branches| && i < |reports[date - start].before| && i < |persons|
    && reports[date - start].branches[i] == AfterLateStuck
    && GetShift(s, Key(team, date - 1, persons[i])) == Some(Shift1500)
    && Get(reports[date - start].before[i].weekOff, WeekInRange(date, start)) >= 1
  }

  /** Before the first day, a run keeps and traces everything trivially. */
  lemma RunStarts(store: Schedule, team: TeamId, persons: seq<PersonId>, start: int, people: seq<PersonState>)
    requires |people| == |persons| && forall i :: 0 <= i < |people| ==> people[i] == Fresh
    ensures RunSoFar(store, store, team, persons, start, 0, people, [])
  {
  }

  /**
   The day loop of a run: generates and commits the first `N` days of the
   range, starting from fresh states and zero counts.
   */
  method RunDays(store: Schedule, team: TeamId, persons: seq<PersonId>, start: int, N: nat,
                 shuffle: nat -> seq<nat>, rand: nat -> nat)
    returns (r: Schedule, people: seq<PersonState>, reports: seq<DayReport>)
    requires DistinctIds(persons)
    requires forall k: nat :: IsPermutation(shuffle(k), |persons|)
    ensures RunSoFar(store, r, team, persons, start, N, people, reports)
  {
    var n := |persons|;
    r, reports := store, [];
    people := seq(n, _ => Fresh);
    var counts := seq(n, _ => Counts(0, 0));
    var calls := 0;
    var K := 0;
    RunStarts(store, team, persons, start, people);
    while K < N
      invariant 0 <= K <= N && |counts| == n
      invariant RunSoFar(store, r, team, persons, start, K, people, reports)
    {
      r, people, counts, reports, calls :=
        AdvanceDay(store, r, team, persons, start, K, people, counts, reports, shuffle(K), rand, calls);
      K := K + 1;
    }
  }

  /**
   The store facts of a run of the first `K` days, over the dates `start`
   .. `end` they cover: nothing else changes, every cell is written with a
   generated code, and each day has at most one "1322".
   */
  lemma StoreShows(store: Schedule, r: Schedule, team: TeamId, persons: seq<PersonId>, start: int, end: int, K: nat)
    requires K == if start <= end then end - start + 1 else 0
    requires FrameKept(store, r, team, persons, start, K)
    requires Covered(r, team, persons, start, K)
    requires Single1322(r, team, persons, start, K)
    ensures forall key: Key :: !(key.team == team && start <= key.date <= end && key.person in persons) ==>
              GetShift(r, key) == GetShift(store, key)
    ensures forall date, i :: start <= date <= end && 0 <= i < |persons| ==>
              GetShift(r, Key(team, date, persons[i])).Some?
              && Generated(GetShift(r, Key(team, date, persons[i])).value)
    ensures forall date, i, j :: (start <= date <= end && 0 <= i < |persons| && 0 <= j < |persons|
              && GetShift(r, Key(team, date, persons[i])) == Some(Shift1322)
              && GetShift(r, Key(team, date, persons[j])) == Some(Shift1322)) ==> i == j
  {
  }

  /**
   A "918" right after a "1500" in the first `K` days, `start` .. `end`,
   comes from a relief branch whose condition held, or from the guard's
   rescue of a day on which everybody else rests.
   */
  lemma LateEarlyShows(s: Schedule, team: TeamId, persons: seq<PersonId>, start: int, end: int, K: nat,
                       reports: seq<DayReport>)
    requires K == if start <= end then end - start + 1 else 0
    requires ReportsSized(persons, K, reports)
    requires LateEarlyExcused(s, team, persons, start, K, reports)
    requires LabelsTied(s, team, persons, start, K, reports)
    ensures forall date, i :: start < date <= end && 0 <= i < |persons|
              && GetShift(s, Key(team, date - 1, persons[i])) == Some(Shift1500)
              && GetShift(s, Key(team, date, persons[i])) == Some(Shift918)
              ==> || (IsRelief(reports[date - start].branches[i])
                      && ReliefDue(reports[date - start].before[i], WeekInRange(date, start)))
                  || (reports[date - start].guardPick == Some(i) && OthersRest(s, team, persons, date, i))
  {
    forall date, i | start < date <= end && 0 <= i < |persons|
      && GetShift(s, Key(team, date - 1, persons[i])) == Some(Shift1500)
      && GetShift(s, Key(team, date, persons[i])) == Some(Shift918)
      ensures || (IsRelief(reports[date - start].branches[i])
                  && ReliefDue(reports[date - start].before[i], WeekInRange(date, start)))
              || (reports[date - start].guardPick == Some(i) && OthersRest(s, team, persons, date, i))
    {
      var k := date - start;
      assert start + k == date;
    }
  }

  /**
   Two rest days of one person in one bucket within the first `K` days,
   `start` .. `end`: one of them is a stuck rest day, so it follows a "1500"
   of the day before, which lies within the range because the first day
   starts fresh.
   */
  lemma StuckShows(s: Schedule, team: TeamId, persons: seq<PersonId>, start: int, end: int, K: nat,
                   people: seq<PersonState>, reports: seq<DayReport>)
    requires K == if start <= end then end - start + 1 else 0
    requires |people| == |persons| && ReportsSized(persons, K, reports)
    requires StartsTraced(s, team, persons, start, K, people, reports)
    requires LabelsTied(s, team, persons, start, K, reports)
    requires OneRestPerBucket(s, team, persons, start, K, reports)
    ensures forall d1, d2, i :: start <= d1 < d2 <= end && 0 <= i < |persons|
              && WeekInRange(d1, start) == WeekInRange(d2, start)
              && GetShift(s, Key(team, d1, persons[i])) == Some(Off)
              && GetShift(s, Key(team, d2, persons[i])) == Some(Off)
              ==> StuckRest(s, team, persons, start, reports, d1, i) || StuckRest(s, team, persons, start, reports, d2, i)
  {
    forall date, i | start <= date < start + K && 0 <= i < |persons|
      && reports[date - start].branches[i] == AfterLateStuck
      ensures StuckRest(s, team, persons, start, reports, date, i)
    {
      var k := date - start;
      assert reports[k].before[i].previous == Some(Shift1500);
      assert k > 0;
      assert reports[k].before[i].previous == GetShift(s, Key(team, start + k - 1, persons[i]));
    }
  }

  /**
   Generates the schedule of `team` for the days `start` .. `end`: every
   cell of the range and the team's persons is written, nothing else is;
   each day has at most one "1322"; "918" follows a "1500" of the day
   before only for a person whose run counters reached a work cap and whose
   rest day of the bucket is used, or for the one person the guard put to work while everybody else
   rests; and each person has at most one rest day per week bucket, unless
   one of the two follows a "1500" in a bucket whose rest day was used.
   `reports[k]` says how day `start + k` was decided and from which states.
   */
  method GenerateScheduleForTeam(store: Schedule, team: TeamId, persons: seq<PersonId>, start: int, end: int,
                                 shuffle: nat -> seq<nat>, rand: nat -> nat)
    returns (r: Schedule, reports: seq<DayReport>)
    requires DistinctIds(persons)
    requires forall k: nat :: IsPermutation(shuffle(k), |persons|)
    ensures |persons| == 0 ==> r == store && reports == []
    ensures |persons| > 0 ==> |reports| == |DaysBetween(start, end)|
    ensures forall k :: 0 <= k < |reports| ==> |reports[k].branches| == |persons| && |reports[k].before| == |persons|
    // the states the days started from: fresh on the first day, later with the cell of the day
    // before as previous shift, and rest tallies that never shrink
    ensures |reports| > 0 ==> forall i :: 0 <= i < |persons| ==> reports[0].before[i] == Fresh
    ensures forall k, i :: 0 < k < |reports| && 0 <= i < |persons| ==>
              reports[k].before[i].previous == GetShift(r, Key(team, start + k - 1, persons[i]))
    ensures forall k1, k2, i :: 0 <= k1 <= k2 < |reports| && 0 <= i < |persons| ==>
              OffsNoLess(reports[k1].before[i], reports[k2].before[i])
    // nothing outside the team's cells of the range changes
    ensures forall key: Key :: !(key.team == team && start <= key.date <= end && key.person in persons) ==>
              GetShift(r, key) == GetShift(store, key)
    // every cell of the range is written with a generated code
    ensures forall date, i :: start <= date <= end && 0 <= i < |persons| ==>
              GetShift(r, Key(team, date, persons[i])).Some?
              && Generated(GetShift(r, Key(team, date, persons[i])).value)
    // at most one "1322" per day
    ensures forall date, i, j :: (start <= date <= end && 0 <= i < |persons| && 0 <= j < |persons|
              && GetShift(r, Key(team, date, persons[i])) == Some(Shift1322)
              && GetShift(r, Key(team, date, persons[j])) == Some(Shift1322)) ==> i == j
    // "918" after a "1500" of the day before, both within the range
    ensures forall date, i :: start < date <= end && 0 <= i < |persons|
              && GetShift(r, Key(team, date - 1, persons[i])) == Some(Shift1500)
              && GetShift(r, Key(team, date, persons[i])) == Some(Shift918)
              ==> || (IsRelief(reports[date - start].branches[i])
                      && ReliefDue(reports[date - start].before[i], WeekInRange(date, start)))
                  || (reports[date - start].guardPick == Some(i) && OthersRest(r, team, persons, date, i))
    // at most one rest day per person and week bucket, unless one of the two is a stuck rest day:
    // after a "1500" of the day before, in a bucket whose rest day was already used
    ensures forall d1, d2, i :: start <= d1 < d2 <= end && 0 <= i < |persons|
              && WeekInRange(d1, start) == WeekInRange(d2, start)
              && GetShift(r, Key(team, d1, persons[i])) == Some(Off)
              && GetShift(r, Key(team, d2, persons[i])) == Some(Off)
              ==> || StuckRest(r, team, persons, start, reports, d1, i)
                  || StuckRest(r, team, persons, start, reports, d2, i)
  {
    r := store;
    reports := [];
    var n := |persons|;
    if n == 0 {
      return;
    }
    var K := |DaysBetween(start, end)|;
    var people;
    r, people, reports := RunDays(store, team, persons, start, K, shuffle, rand);
    StoreShows(store, r, team, persons, start, end, K);
    LateEarlyShows(r, team, persons, start, end, K, reports);
    StuckShows(r, team, persons, start, end, K, people, reports);
  }
}

=== FILE: repair.dfy ===
/**
 The repair passes that follow the initial pass of a day:
 - pass A: at least one "1322" (overwrites without rolling back counters);
 - pass B: at least three "1500" when the team has three or more persons;
 - the all-off guard: not everybody rests;
 - pass C: a second "1322" check that rolls back the overwritten pick.

 Each pass scans the persons in the day's processing order.
 */
module Repair {
  import opened Shifts
  import opened Selection
  import opened RunState

  /** The provisional state of a day: picks, person states, counts and the day's tallies. */
  datatype Day = Day(
    temp: seq<Option<ShiftCode>>,
    people: seq<PersonState>,
    counts: seq<Counts>,
    day1322: int,
    day1500: int)

  predicate Sized(d: Day) {
    |d.people| == |d.temp| && |d.counts| == |d.temp|
  }

  /** Every person's previous shift is today's pick. */
  ghost predicate Synced(d: Day)
    requires Sized(d)
  {
    forall i :: 0 <= i < |d.temp| ==> d.people[i].previous == d.temp[i]
  }

  /** No pass touches the rest-day tallies. */
  ghost predicate SameOffs(a: Day, b: Day)
    requires Sized(a) && Sized(b) && |a.temp| == |b.temp|
  {
    forall i :: 0 <= i < |a.temp| ==> b.people[i].weekOff == a.people[i].weekOff
  }

  predicate Distinct(xs: seq<nat>) {
    forall i, j :: 0 <= i < j < |xs| ==> xs[i] != xs[j]
  }

  /** The position in `order` of the first person satisfying `keep`. */
  function FirstIndex(order: seq<nat>, keep: nat -> bool): (r: Option<nat>)
    ensures r.Some? ==> r.value < |order| && keep(order[r.value])
    ensures r.Some? ==> forall m :: 0 <= m < r.value ==> !keep(order[m])
    ensures r.None? ==> forall m :: 0 <= m < |order| ==> !keep(order[m])
  {
    if |order| == 0 then None
    else if keep(order[0]) then Some(0)
    else
      match FirstIndex(order[1..], keep)
      case None => None
      case Some(m) => Some(m + 1)
  }

  /** The persons of `order` satisfying `keep`, in order. */
  function Filter(order: seq<nat>, keep: nat -> bool): (r: seq<nat>)
    ensures forall x :: x in r ==> x in order && keep(x)
    ensures forall m :: 0 <= m < |order| && keep(order[m]) ==> order[m] in r
    ensures Distinct(order) ==> Distinct(r)
  {
    if |order| == 0 then []
    else
      var rest := Filter(order[1..], keep);
      assert forall m :: 1 <= m < |order| ==> order[m] == order[1..][m - 1];
      if keep(order[0]) then
        assert Distinct(order) ==> order[0] !in order[1..];
        [order[0]] + rest
      else
        rest
  }

  /**
   Every leading part of `Filter(order, keep)` takes persons in the order's
   sequence: nobody satisfying `keep` is passed over for someone later.
   */
  lemma {:induction false} FilterPrefixFirst(order: seq<nat>, keep: nat -> bool, n: nat)
    requires Distinct(order) && n <= |Filter(order, keep)|
    ensures forall m1, m2 :: 0 <= m1 < m2 < |order| && order[m2] in Filter(order, keep)[..n] && keep(order[m1])
              ==> order[m1] in Filter(order, keep)[..n]
  {
    if |order| > 0 {
      var r := Filter(order, keep);
      var rest := Filter(order[1..], keep);
      assert Distinct(order[1..]);
      assert forall m :: 1 <= m < |order| ==> order[m] == order[1..][m - 1];
      if keep(order[0]) {
        assert r == [order[0]] + rest;
        if n > 0 {
          FilterPrefixFirst(order[1..], keep, n - 1);
          assert r[..n] == [order[0]] + rest[..n - 1];
          forall m1, m2 | 0 <= m1 < m2 < |order| && order[m2] in r[..n] && keep(order[m1])
            ensures order[m1] in r[..n]
          {
            if m1 > 0 {
              assert order[m2] != order[0];
              assert order[1..][m2 - 1] in rest[..n - 1];
            }
          }
        }
      } else {
        assert r == rest;
        FilterPrefixFirst(order[1..], keep, n);
        forall m1, m2 | 0 <= m1 < m2 < |order| && order[m2] in r[..n] && keep(order[m1])
          ensures order[m1] in r[..n]
        {
          assert order[1..][m2 - 1] in rest[..n];
        }
      }
    }
  }

  /**
   Person `p` is moved to the working shift `s`: one more working day in
   the bucket and in the streak, `s` becomes the previous shift, and the
   day's tally and the person's count of `s` grow by one.
   */
  function Put(d: Day, p: nat, wk: int, s: ShiftCode): (r: Day)
    requires Sized(d) && p < |d.temp|
    ensures Sized(r) && |r.temp| == |d.temp| && SameOffs(d, r)
    ensures r.temp == d.temp[p := Some(s)]
    ensures r.people[p].previous == Some(s)
    ensures Get(r.people[p].weekWork, wk) == Get(d.people[p].weekWork, wk) + 1
    ensures forall v :: v != wk ==> Get(r.people[p].weekWork, v) == Get(d.people[p].weekWork, v)
    ensures r.people[p].streak == d.people[p].streak + 1
    ensures r.counts[p].n918 == d.counts[p].n918 + (if s == Shift918 then 1 else 0)
    ensures r.counts[p].n1500 == d.counts[p].n1500 + (if s == Shift1500 then 1 else 0)
    ensures r.day1322 == d.day1322 + (if s == Shift1322 then 1 else 0)
    ensures r.day1500 == d.day1500 + (if s == Shift1500 then 1 else 0)
    ensures forall i :: 0 <= i < |d.temp| && i != p ==> r.people[i] == d.people[i] && r.counts[i] == d.counts[i]
  {
    var ps := d.people[p];
    var c := d.counts[p];
    d.(temp := d.temp[p := Some(s)],
       people := d.people[p := ps.(weekWork := Bump(ps.weekWork, wk, 1), streak := ps.streak + 1,
                                  previous := Some(s))],
       counts := d.counts[p := Counts(if s == Shift918 then c.n918 + 1 else c.n918,
                                      if s == Shift1500 then c.n1500 + 1 else c.n1500)],
       day1322 := if s == Shift1322 then d.day1322 + 1 else d.day1322,
       day1500 := if s == Shift1500 then d.day1500 + 1 else d.day1500)
  }

  // ---- pass A and pass C: at least one "1322" ----

  /** Who may be moved to "1322": not on it, under both work caps, no rest day this bucket. */
  predicate Eligible1322(d: Day, wk: int, i: nat)
    requires Sized(d)
  {
    && i < |d.temp|
    && d.temp[i] != Some(Shift1322)
    && Get(d.people[i].weekWork, wk) < 6
    && d.people[i].streak < 6
    && Get(d.people[i].weekOff, wk) < 1
  }

  /** `i` is the first person of `order` eligible for "1322". */
  ghost predicate FirstFor1322(d: Day, order: seq<nat>, wk: int, i: nat)
    requires Sized(d)
  {
    exists m :: 0 <= m < |order| && order[m] == i && Eligible1322(d, wk, i)
                && forall m' :: 0 <= m' < m ==> !Eligible1322(d, wk, order[m'])
  }

  /**
   The person passes A and C move to "1322": when nobody holds it, the
   first eligible person of the processing order.
   */
  function Target1322(d: Day, order: seq<nat>, wk: int): (t: Option<nat>)
    requires Sized(d)
    ensures t.Some? ==> t.value < |d.temp| && FirstFor1322(d, order, wk, t.value)
    ensures t.Some? ==> Count(d.temp, Shift1322) == 0
    ensures t.None? <==> Count(d.temp, Shift1322) >= 1 || |d.temp| == 0
                         || forall m :: 0 <= m < |order| ==> !Eligible1322(d, wk, order[m])
  {
    if Count(d.temp, Shift1322) < 1 && |d.temp| >= 1 then
      match FirstIndex(order, (i: nat) => Eligible1322(d, wk, i))
      case None => None
      case Some(m) =>
        assert FirstFor1322(d, order, wk, order[m]);
        Some(order[m])
    else
      None
  }

  /** The day's picks after pass A or pass C: the target, if any, on "1322". */
  function Marked(d: Day, order: seq<nat>, wk: int): (t: seq<Option<ShiftCode>>)
    requires Sized(d)
    ensures |t| == |d.temp|
    ensures forall i :: 0 <= i < |d.temp| ==>
              t[i] == if Target1322(d, order, wk) == Some(i) then Some(Shift1322) else d.temp[i]
  {
    match Target1322(d, order, wk)
    case None => d.temp
    case Some(p) => d.temp[p := Some(Shift1322)]
  }

  /**
   What pass A and pass C achieve: somebody holds "1322" afterwards exactly
   when somebody did before or somebody was eligible; "1322" keeps at most
   one holder; the count of "1500" does not grow.
   */
  lemma MarkedCovers(d: Day, order: seq<nat>, wk: int)
    requires Sized(d)
    ensures Count(Marked(d, order, wk), Shift1322) >= 1 <==>
              Count(d.temp, Shift1322) >= 1
              || (|d.temp| >= 1 && exists m :: 0 <= m < |order| && Eligible1322(d, wk, order[m]))
    ensures AtMostOne(d.temp, Shift1322) ==> AtMostOne(Marked(d, order, wk), Shift1322)
    ensures Count(Marked(d, order, wk), Shift1500) <= Count(d.temp, Shift1500)
  {
    var t := Target1322(d, order, wk);
    if t.Some? {
      var p := t.value;
      assert Marked(d, order, wk) == d.temp[p := Some(Shift1322)];
      CountZero(d.temp, Shift1322);
      CountPositive(d.temp[p := Some(Shift1322)], Shift1322, p);
      TallySet(d.temp, p, Some(Shift1322), Shift1500, -1);
    }
  }

  /**
   Pass A. When nobody holds "1322", the first eligible person in the
   processing order is moved to it; the pick it overwrites keeps its
   contribution to the counters.
   */
  function PassA(d: Day, order: seq<nat>, wk: int): (r: Day)
    requires Sized(d)
    ensures Sized(r) && |r.temp| == |d.temp| && SameOffs(d, r)
    ensures r.temp == Marked(d, order, wk)
    // no roll-back: the overwritten pick still counts
    ensures r.counts == d.counts && r.day1500 == d.day1500
    ensures Target1322(d, order, wk).None? ==> r == d
    ensures Target1322(d, order, wk).Some? ==>
              var p := Target1322(d, order, wk).value;
              && Get(r.people[p].weekWork, wk) == Get(d.people[p].weekWork, wk) + 1
              && r.people[p].streak == d.people[p].streak + 1
    ensures forall i :: 0 <= i < |d.temp| && Target1322(d, order, wk) != Some(i) ==> r.people[i] == d.people[i]
    ensures Synced(d) ==> Synced(r)
  {
    match Target1322(d, order, wk)
    case None => d
    case Some(p) => Put(d, p, wk, Shift1322)
  }

  /**
   Undoes the counter contributions of person `p`'s current pick (a "1500"
   or "918" count, the day's "1500" tally, and for a working shift one
   working day and one streak day where they are positive).
   */
  function RollBack(d: Day, p: nat, wk: int): (r: Day)
    requires Sized(d) && p < |d.temp|
    ensures Sized(r) && |r.temp| == |d.temp| && SameOffs(d, r)
    ensures r.temp == d.temp && r.day1322 == d.day1322
    ensures r.people[p].previous == d.people[p].previous
    ensures forall i :: 0 <= i < |d.temp| && i != p ==> r.people[i] == d.people[i] && r.counts[i] == d.counts[i]
    ensures d.temp[p] != Some(Shift1322) ==>
              && r.counts[p].n918 == d.counts[p].n918 - (if d.temp[p] == Some(Shift918) then 1 else 0)
              && r.counts[p].n1500 == d.counts[p].n1500 - (if d.temp[p] == Some(Shift1500) then 1 else 0)
              && r.day1500 == d.day1500 - (if d.temp[p] == Some(Shift1500) then 1 else 0)
    ensures d.temp[p] != Some(Shift1322) && d.temp[p].Some? && IsWork(d.temp[p].value)
            && Get(d.people[p].weekWork, wk) != 0 ==>
              Get(r.people[p].weekWork, wk) == Get(d.people[p].weekWork, wk) - 1
    // the streak loses the day of a working pick, but never drops below zero
    ensures r.people[p].streak ==
              if d.temp[p] != Some(Shift1322) && d.temp[p].Some? && IsWork(d.temp[p].value)
                 && d.people[p].streak > 0
              then d.people[p].streak - 1 else d.people[p].streak
  {
    var cur := d.temp[p];
    if cur.Some? && cur != Some(Shift1322) then
      var s := cur.value;
      var c := d.counts[p];
      var ps := d.people[p];
      var work := Get(ps.weekWork, wk);
      var ps' := if IsWork(s) then
                   ps.(weekWork := if work != 0 then Bump(ps.weekWork, wk, -1) else ps.weekWork,
                       streak := if ps.streak > 0 then ps.streak - 1 else ps.streak)
                 else ps;
      d.(people := d.people[p := ps'],
         counts := d.counts[p := Counts(if s == Shift918 then c.n918 - 1 else c.n918,
                                        if s == Shift1500 then c.n1500 - 1 else c.n1500)],
         day1500 := if s == Shift1500 then d.day1500 - 1 else d.day1500)
    else
      d
  }

  /**
   Pass C. The same search as pass A after the all-off guard, but the
   overwritten pick's counters are rolled back first, so the net effect on
   a working pick is the swap of one code for "1322".
   */
  function PassC(d: Day, order: seq<nat>, wk: int): (r: Day)
    requires Sized(d)
    ensures Sized(r) && |r.temp| == |d.temp| && SameOffs(d, r)
    ensures r.temp == Marked(d, order, wk)
    ensures Target1322(d, order, wk).None? ==> r == d
    // roll-back: the overwritten pick no longer counts
    ensures Target1322(d, order, wk).Some? ==>
              var p := Target1322(d, order, wk).value;
              && r.counts[p].n918 == d.counts[p].n918 - (if d.temp[p] == Some(Shift918) then 1 else 0)
              && r.counts[p].n1500 == d.counts[p].n1500 - (if d.temp[p] == Some(Shift1500) then 1 else 0)
              && r.day1500 == d.day1500 - (if d.temp[p] == Some(Shift1500) then 1 else 0)
              && (d.temp[p].Some? && IsWork(d.temp[p].value) && Get(d.people[p].weekWork, wk) != 0 ==>
                    Get(r.people[p].weekWork, wk) == Get(d.people[p].weekWork, wk))
              // a working pick with a positive streak is swapped; otherwise "1322" adds a day
              && r.people[p].streak ==
                   if d.temp[p].Some? && IsWork(d.temp[p].value) && d.people[p].streak > 0
                   then d.people[p].streak else d.people[p].streak + 1
    ensures forall i :: 0 <= i < |d.temp| && Target1322(d, order, wk) != Some(i) ==>
              r.counts[i] == d.counts[i] && r.people[i] == d.people[i]
    ensures Synced(d) ==> Synced(r)
  {
    match Target1322(d, order, wk)
    case None => d
    case Some(p) => Put(RollBack(d, p, wk), p, wk, Shift1322)
  }

  // ---- pass B: at least three "1500" ----

  /** Who may be moved to "1500": not on it, under both work caps. */
  predicate Eligible1500(d: Day, wk: int, i: nat)
    requires Sized(d)
  {
    && i < |d.temp|
    && d.temp[i] != Some(Shift1500)
    && Get(d.people[i].weekWork, wk) < 6
    && d.people[i].streak < 6
  }

  /** Moves every person of `chosen` to "1500", in order. */
  function AssignLate(d: Day, chosen: seq<nat>, wk: int): (r: Day)
    requires Sized(d) && forall x :: x in chosen ==> x < |d.temp|
    ensures Sized(r) && |r.temp| == |d.temp| && SameOffs(d, r)
    ensures forall i :: 0 <= i < |d.temp| ==> r.temp[i] == if i in chosen then Some(Shift1500) else d.temp[i]
    ensures forall i :: 0 <= i < |d.temp| && i !in chosen ==> r.people[i] == d.people[i] && r.counts[i] == d.counts[i]
    // each person moved once gains one working day, one streak day and one "1500"; the pick it
    // overwrites is not rolled back
    ensures Distinct(chosen) ==> forall i :: i in chosen ==>
              && Get(r.people[i].weekWork, wk) == Get(d.people[i].weekWork, wk) + 1
              && r.people[i].streak == d.people[i].streak + 1
              && r.counts[i].n1500 == d.counts[i].n1500 + 1
              && r.counts[i].n918 == d.counts[i].n918
    ensures r.day1322 == d.day1322 && r.day1500 == d.day1500 + |chosen|
    ensures Synced(d) ==> Synced(r)
    decreases |chosen|
  {
    if |chosen| == 0 then d
    else
      assert chosen[0] in chosen;
      assert forall x :: x in chosen <==> x == chosen[0] || x in chosen[1..];
      assert Distinct(chosen) ==> chosen[0] !in chosen[1..] && Distinct(chosen[1..]);
      AssignLate(Put(d, chosen[0], wk, Shift1500), chosen[1..], wk)
  }

  /** Moving persons to "1500" raises its count by at most their number. */
  lemma {:induction false} AssignLateAtMost(d: Day, chosen: seq<nat>, wk: int)
    requires Sized(d) && forall x :: x in chosen ==> x < |d.temp|
    ensures Count(AssignLate(d, chosen, wk).temp, Shift1500) <= Count(d.temp, Shift1500) + |chosen|
    decreases |chosen|
  {
    if |chosen| > 0 {
      var p := chosen[0];
      assert p in chosen;
      TallySet(d.temp, p, Some(Shift1500), Shift1500, -1);
      assert forall x :: x in chosen[1..] ==> x in chosen;
      AssignLateAtMost(Put(d, p, wk, Shift1500), chosen[1..], wk);
    }
  }

  /** Moving distinct persons not yet on "1500" raises its count by exactly their number. */
  lemma {:induction false} AssignLateCount(d: Day, chosen: seq<nat>, wk: int)
    requires Sized(d) && forall x :: x in chosen ==> x < |d.temp|
    requires Distinct(chosen) && forall x :: x in chosen ==> d.temp[x] != Some(Shift1500)
    ensures Count(AssignLate(d, chosen, wk).temp, Shift1500) == Count(d.temp, Shift1500) + |chosen|
    decreases |chosen|
  {
    if |chosen| > 0 {
      var p := chosen[0];
      assert p in chosen;
      TallySet(d.temp, p, Some(Shift1500), Shift1500, -1);
      assert p !in chosen[1..];
      assert forall x :: x in chosen[1..] ==> x in chosen && x != p;
      assert Distinct(chosen[1..]);
      AssignLateCount(Put(d, p, wk, Shift1500), chosen[1..], wk);
    }
  }

  /** The persons pass B moves: the first eligible ones, as many as are missing. */
  function LateChosen(d: Day, order: seq<nat>, wk: int): (chosen: seq<nat>)
    requires Sized(d)
    ensures forall x :: x in chosen ==> Eligible1500(d, wk, x)
    ensures |chosen| <= 3 - Count(d.temp, Shift1500) || |chosen| == 0
    // as many as are missing, or every eligible person when there are too few
    ensures Count(d.temp, Shift1500) < 3 ==>
              |chosen| == 3 - Count(d.temp, Shift1500)
              || forall m :: 0 <= m < |order| && Eligible1500(d, wk, order[m]) ==> order[m] in chosen
    ensures Distinct(order) ==> Distinct(chosen)
    // nobody eligible is passed over for someone later in the order
    ensures Distinct(order) ==>
              forall m1, m2 :: 0 <= m1 < m2 < |order| && order[m2] in chosen && Eligible1500(d, wk, order[m1])
                ==> order[m1] in chosen
  {
    var keep := (i: nat) => Eligible1500(d, wk, i);
    var eligible := Filter(order, keep);
    var needed := 3 - Count(d.temp, Shift1500);
    if needed <= 0 then []
    else if needed <= |eligible| then
      assert forall x :: x in eligible[..needed] ==> x in eligible;
      if Distinct(order) then
        FilterPrefixFirst(order, keep, needed);
        eligible[..needed]
      else
        eligible[..needed]
    else eligible
  }

  /**
   Pass B. With three or more persons and fewer than three on "1500", the
   first eligible persons of the processing order are moved to "1500",
   as many as are missing.
   */
  function PassB(d: Day, order: seq<nat>, wk: int): (r: Day)
    requires Sized(d)
    ensures Sized(r) && |r.temp| == |d.temp| && SameOffs(d, r)
    ensures forall i :: 0 <= i < |d.temp| ==> r.temp[i] == d.temp[i] || r.temp[i] == Some(Shift1500)
    ensures forall i :: 0 <= i < |d.temp| && r.temp[i] != d.temp[i] ==> Eligible1500(d, wk, i)
    ensures forall i :: 0 <= i < |d.temp| && r.temp[i] == d.temp[i] ==>
              r.people[i] == d.people[i] && r.counts[i] == d.counts[i]
    // each moved person gains one working day, one streak day and one "1500"; the pick it
    // overwrites is not rolled back
    ensures Distinct(order) ==> forall i :: 0 <= i < |d.temp| && r.temp[i] != d.temp[i] ==>
              && Get(r.people[i].weekWork, wk) == Get(d.people[i].weekWork, wk) + 1
              && r.people[i].streak == d.people[i].streak + 1
              && r.counts[i].n1500 == d.counts[i].n1500 + 1
              && r.counts[i].n918 == d.counts[i].n918
    ensures Synced(d) ==> Synced(r)
    ensures AtMostOne(d.temp, Shift1322) ==> AtMostOne(r.temp, Shift1322)
    ensures Count(d.temp, Shift1500) >= 3 || |d.temp| < 3 ==> r == d
  {
    if Count(d.temp, Shift1500) < 3 && |d.temp| >= 3 then
      var chosen := LateChosen(d, order, wk);
      assert forall x :: x in chosen ==> x < |d.temp|;
      AssignLate(d, chosen, wk)
    else
      d
  }

  /** What pass B achieves: three persons on "1500", or every eligible person moved to it. */
  lemma PassBCovers(d: Day, order: seq<nat>, wk: int)
    requires Sized(d) && Distinct(order) && |d.temp| >= 3
    ensures Count(PassB(d, order, wk).temp, Shift1500) >= 3
            || forall m :: 0 <= m < |order| && Eligible1500(d, wk, order[m]) ==>
                 PassB(d, order, wk).temp[order[m]] == Some(Shift1500)
  {
    if Count(d.temp, Shift1500) < 3 {
      var eligible := Filter(order, (i: nat) => Eligible1500(d, wk, i));
      var chosen := LateChosen(d, order, wk);
      assert forall x :: x in chosen ==> x < |d.temp| && x in eligible;
      assert Distinct(eligible);
      assert Distinct(chosen);
      AssignLateCount(d, chosen, wk);
    }
  }

  /** Pass B never raises the count of "1500" beyond three. */
  lemma PassBAtMostThree(d: Day, order: seq<nat>, wk: int)
    requires Sized(d)
    ensures Count(d.temp, Shift1500) < 3 ==> Count(PassB(d, order, wk).temp, Shift1500) <= 3
  {
    if Count(d.temp, Shift1500) < 3 && |d.temp| >= 3 {
      var chosen := LateChosen(d, order, wk);
      assert forall x :: x in chosen ==> x < |d.temp|;
      AssignLateAtMost(d, chosen, wk);
    }
  }

  /**
   Pass B does not roll back the pick it overwrites, so a day can count
   twice: three persons whom the initial pass put on "918" (one working day,
   streak one) end pass B on "1500" alone, yet with two working days in the
   bucket and a streak of two.
   */
  lemma PassBCountsTwice()
    ensures var p := PersonState(map[0 := 1], map[], 1, Some(Shift918));
            var d := Day([Some(Shift918), Some(Shift918), Some(Shift918)], [p, p, p],
                         [Counts(1, 0), Counts(1, 0), Counts(1, 0)], 0, 0);
            var r := PassB(d, [0, 1, 2], 0);
            && r.temp[0] == Some(Shift1500)
            && Get(r.people[0].weekWork, 0) == 2 && r.people[0].streak == 2
  {
    var p := PersonState(map[0 := 1], map[], 1, Some(Shift918));
    var d := Day([Some(Shift918), Some(Shift918), Some(Shift918)], [p, p, p],
                 [Counts(1, 0), Counts(1, 0), Counts(1, 0)], 0, 0);
    var order: seq<nat> := [0, 1, 2];
    CountZero(d.temp, Shift1500);
    assert Count(d.temp, Shift1500) == 0;
    var chosen := LateChosen(d, order, 0);
    assert Eligible1500(d, 0, order[0]);
    assert Distinct(order);
    // person 0 comes first in the order and is eligible, so pass B moves them
    assert 0 in chosen;
    assert PassB(d, order, 0).temp[0] == Some(Shift1500);
  }

  // ---- the all-off guard ----

  /** Everybody rests today. */
  predicate AllOff(temp: seq<Option<ShiftCode>>) {
    forall i :: 0 <= i < |temp| ==> temp[i] == Some(Off)
  }

  /** The guard's first search: resting (or unassigned) and under both work caps. */
  predicate GuardEligible(d: Day, wk: int, i: nat)
    requires Sized(d)
  {
    && i < |d.temp|
    && !(d.temp[i].Some? && d.temp[i] != Some(Off))
    && Get(d.people[i].weekWork, wk) < 6
    && d.people[i].streak < 6
  }

  /** The guard's second search: no rest day this bucket yet. */
  predicate RestUnused(d: Day, wk: int, i: nat)
    requires Sized(d)
  {
    i < |d.temp| && Get(d.people[i].weekOff, wk) < 1
  }

  /**
   Every rest day picked today has been counted in the bucket's rest tally:
   a person resting today has used a rest day this bucket.
   */
  ghost predicate OffsRested(d: Day, wk: int)
    requires Sized(d)
  {
    forall i :: 0 <= i < |d.temp| && d.temp[i] == Some(Off) ==> Get(d.people[i].weekOff, wk) >= 1
  }

  /** `i` is the first person of `order` the guard's first search accepts. */
  ghost predicate FirstGuardEligible(d: Day, order: seq<nat>, wk: int, i: nat)
    requires Sized(d)
  {
    exists m :: 0 <= m < |order| && order[m] == i && GuardEligible(d, wk, i)
                && forall m' :: 0 <= m' < m ==> !GuardEligible(d, wk, order[m'])
  }

  /** `i` is the first person of `order` the guard's second search accepts. */
  ghost predicate FirstRestUnused(d: Day, order: seq<nat>, wk: int, i: nat)
    requires Sized(d)
  {
    exists m :: 0 <= m < |order| && order[m] == i && RestUnused(d, wk, i)
                && forall m' :: 0 <= m' < m ==> !RestUnused(d, wk, order[m'])
  }

  /** The guard's first search finds nobody. */
  ghost predicate NoGuardEligible(d: Day, order: seq<nat>, wk: int)
    requires Sized(d)
  {
    forall m :: 0 <= m < |order| ==> !GuardEligible(d, wk, order[m])
  }

  /** Nobody of `order` may be moved to "1322". */
  ghost predicate No1322Eligible(d: Day, order: seq<nat>, wk: int)
    requires Sized(d)
  {
    forall m :: 0 <= m < |order| ==> !Eligible1322(d, wk, order[m])
  }

  /** The guard's second search finds nobody. */
  ghost predicate NoRestUnused(d: Day, order: seq<nat>, wk: int)
    requires Sized(d)
  {
    forall m :: 0 <= m < |order| ==> !RestUnused(d, wk, order[m])
  }

  datatype GuardResult = GuardResult(day: Day, pick: Option<nat>, calls: nat)

  /** The guard's pick for person `p`: the pick policy over the three working shifts. */
  function GuardShift(d: Day, p: nat, rand: nat -> nat, calls: nat): (s: ShiftCode)
    requires Sized(d) && p < |d.temp|
    ensures IsWork(s)
  {
    SelectShift([Shift918, Shift1322, Shift1500], p, d.day1322, d.day1500, d.counts, d.temp, rand(calls))
  }

  /** Person `p` is moved to a working shift chosen by the pick policy. */
  function GuardAssign(d: Day, p: nat, wk: int, rand: nat -> nat, calls: nat): (g: GuardResult)
    requires Sized(d) && p < |d.temp|
    ensures Sized(g.day) && |g.day.temp| == |d.temp| && SameOffs(d, g.day)
    ensures g.pick == Some(p) && g.calls == calls + 1
    ensures Get(g.day.people[p].weekWork, wk) == Get(d.people[p].weekWork, wk) + 1
    ensures g.day.people[p].streak == d.people[p].streak + 1
    ensures Count(g.day.temp, Shift1500) <= Count(d.temp, Shift1500) + 1
    ensures g.day.temp[p].Some? && IsWork(g.day.temp[p].value)
    ensures g.day.people[p].previous == g.day.temp[p]
    ensures forall i :: 0 <= i < |d.temp| && i != p ==> g.day.temp[i] == d.temp[i] && g.day.people[i] == d.people[i]
  {
    var s := GuardShift(d, p, rand, calls);
    TallySet(d.temp, p, Some(s), Shift1500, -1);
    var day := Put(d, p, wk, s);
    GuardResult(day, Some(p), calls + 1)
  }

  /**
   The person the all-off guard moves: when everybody rests, the first
   person of the processing order under both work caps, failing that the
   first one without a rest day this bucket.
   */
  function GuardTarget(d: Day, order: seq<nat>, wk: int): (t: Option<nat>)
    requires Sized(d)
    ensures t.Some? ==> AllOff(d.temp) && t.value < |d.temp|
    ensures t.Some? ==> GuardEligible(d, wk, t.value) || RestUnused(d, wk, t.value)
    // the first of the order found by the first search, failing that by the second
    ensures t.Some? ==>
              || FirstGuardEligible(d, order, wk, t.value)
              || (NoGuardEligible(d, order, wk) && FirstRestUnused(d, order, wk, t.value))
    // nobody is moved only when not everybody rests or both searches find nobody
    ensures t.None? <==>
              || !AllOff(d.temp) || |d.temp| == 0
              || (NoGuardEligible(d, order, wk) && NoRestUnused(d, order, wk))
    // the first search wins whenever somebody is under both work caps
    ensures AllOff(d.temp) && |d.temp| > 0 && (exists m :: 0 <= m < |order| && GuardEligible(d, wk, order[m]))
            ==> t.Some? && GuardEligible(d, wk, t.value)
  {
    if AllOff(d.temp) && |d.temp| > 0 then
      match FirstIndex(order, (i: nat) => GuardEligible(d, wk, i))
      case Some(m) =>
        assert FirstGuardEligible(d, order, wk, order[m]);
        Some(order[m])
      case None =>
        match FirstIndex(order, (i: nat) => RestUnused(d, wk, i))
        case Some(m) =>
          assert FirstRestUnused(d, order, wk, order[m]);
          Some(order[m])
        case None => None
    else
      None
  }

  /**
   The all-off guard: the target, if any, gets a working shift by the pick
   policy; nobody else changes.
   */
  function Guard(d: Day, order: seq<nat>, wk: int, rand: nat -> nat, calls: nat): (g: GuardResult)
    requires Sized(d)
    ensures Sized(g.day) && |g.day.temp| == |d.temp| && SameOffs(d, g.day)
    ensures g.pick == GuardTarget(d, order, wk)
    ensures g.pick.None? ==> g.day == d
    ensures g.pick.Some? ==> g.day.temp[g.pick.value].Some? && IsWork(g.day.temp[g.pick.value].value)
    ensures g.pick.Some? ==>
              && Get(g.day.people[g.pick.value].weekWork, wk) == Get(d.people[g.pick.value].weekWork, wk) + 1
              && g.day.people[g.pick.value].streak == d.people[g.pick.value].streak + 1
    ensures forall i :: 0 <= i < |d.temp| && g.pick != Some(i) ==> g.day.temp[i] == d.temp[i]
    ensures Synced(d) ==> Synced(g.day)
    ensures AtMostOne(d.temp, Shift1322) ==> AtMostOne(g.day.temp, Shift1322)
    ensures g.pick.Some? ==> Count(g.day.temp, Shift1500) <= 1
    // not everybody rests, when someone is under both work caps
    ensures AllOff(d.temp) && |d.temp| > 0 && (exists m :: 0 <= m < |order| && GuardEligible(d, wk, order[m]))
            ==> !AllOff(g.day.temp)
    // when every rest day of today is counted, the relaxed second search never fires
    ensures OffsRested(d, wk) && g.pick.Some? ==> GuardEligible(d, wk, g.pick.value)
  {
    match GuardTarget(d, order, wk)
    case None => GuardResult(d, None, calls)
    case Some(p) =>
      assert d.temp[p] == Some(Off);
      CountZero(d.temp, Shift1500);
      var g := GuardAssign(d, p, wk, rand, calls);
      assert !AllOff(g.day.temp) by { assert g.day.temp[p] != Some(Off); }
      g
  }

  /**
   Pass A then pass B: each person's pick stays or becomes "1322" or "1500",
   rest tallies are untouched, and neither "1322" nor "1500" goes past its
   bound.
   */
  function FirstRepairs(d: Day, order: seq<nat>, wk: int): (b: Day)
    requires Sized(d)
    ensures Sized(b) && |b.temp| == |d.temp| && SameOffs(d, b)
    ensures forall i :: 0 <= i < |d.temp| ==>
              b.temp[i] == d.temp[i] || b.temp[i] == Some(Shift1322) || b.temp[i] == Some(Shift1500)
    ensures Synced(d) ==> Synced(b)
    ensures AtMostOne(d.temp, Shift1322) ==> AtMostOne(b.temp, Shift1322)
    ensures Count(d.temp, Shift1500) <= 3 ==> Count(b.temp, Shift1500) <= 3
  {
    var a := PassA(d, order, wk);
    MarkedCovers(d, order, wk);
    PassBAtMostThree(a, order, wk);
    PassB(a, order, wk)
  }

  /**
   The repair passes of a day in the order they run: pass A, pass B, the
   all-off guard and pass C. Each person's pick stays, becomes "1322" or
   "1500", or is the working shift the guard gave; rest tallies are untouched.
   */
  function Repairs(d: Day, order: seq<nat>, wk: int, rand: nat -> nat, calls: nat): (g: GuardResult)
    requires Sized(d)
    ensures Sized(g.day) && |g.day.temp| == |d.temp| && SameOffs(d, g.day)
    ensures forall i :: 0 <= i < |d.temp| ==>
              || g.day.temp[i] == d.temp[i]
              || g.day.temp[i] == Some(Shift1322)
              || g.day.temp[i] == Some(Shift1500)
              || (g.pick == Some(i) && g.day.temp[i].Some? && IsWork(g.day.temp[i].value))
    ensures g.pick.Some? ==> g.pick.value < |d.temp|
    ensures Synced(d) ==> Synced(g.day)
    ensures AtMostOne(d.temp, Shift1322) ==> AtMostOne(g.day.temp, Shift1322)
    ensures Count(d.temp, Shift1500) <= 3 ==> Count(g.day.temp, Shift1500) <= 3
    // the day ends without "1322" only when nobody is left eligible for it
    ensures |d.temp| > 0 && Count(g.day.temp, Shift1322) == 0 ==> No1322Eligible(g.day, order, wk)
    // the day ends with everybody resting only when nobody is under both work caps
    ensures |d.temp| > 0 && AllOff(g.day.temp) ==> NoGuardEligible(g.day, order, wk)
  {
    var b := FirstRepairs(d, order, wk);
    var g := Guard(b, order, wk, rand, calls);
    MarkedCovers(g.day, order, wk);
    GuardThenPassC(b, order, wk, rand, calls);
    GuardResult(PassC(g.day, order, wk), g.pick, g.calls)
  }

  /**
   The guard followed by pass C: a day left without "1322" has nobody
   eligible for it, and a day left with everybody resting was left so by
   both, with nobody under both work caps.
   */
  lemma GuardThenPassC(b: Day, order: seq<nat>, wk: int, rand: nat -> nat, calls: nat)
    requires Sized(b)
    ensures var c := PassC(Guard(b, order, wk, rand, calls).day, order, wk);
            |b.temp| > 0 && Count(c.temp, Shift1322) == 0 ==> No1322Eligible(c, order, wk)
    ensures var c := PassC(Guard(b, order, wk, rand, calls).day, order, wk);
            |b.temp| > 0 && AllOff(c.temp) ==> c == b && NoGuardEligible(c, order, wk)
  {
    var g := Guard(b, order, wk, rand, calls);
    var c := PassC(g.day, order, wk);
    MarkedCovers(g.day, order, wk);
    if |b.temp| > 0 && Count(c.temp, Shift1322) == 0 {
      assert Target1322(g.day, order, wk).None?;
    }
    if |b.temp| > 0 && AllOff(c.temp) {
      match Target1322(g.day, order, wk)
      case Some(p) =>
        assert false;
      case None =>
        if g.pick.Some? {
          assert false;
        }
    }
  }

  /** When everybody rests after pass B, passes A and B changed nobody. */
  lemma UntouchedWhenAllOff(d: Day, order: seq<nat>, wk: int)
    requires Sized(d) && AllOff(FirstRepairs(d, order, wk).temp)
    ensures var b := FirstRepairs(d, order, wk);
            b.temp == d.temp && b.people == d.people
  {
    var a := PassA(d, order, wk);
    var b := PassB(a, order, wk);
    assert FirstRepairs(d, order, wk) == b;
    forall i | 0 <= i < |d.temp| ensures a.temp[i] == b.temp[i] && d.temp[i] == a.temp[i] {
      assert b.temp[i] == Some(Off);
      assert Target1322(d, order, wk) != Some(i);
    }
    assert b.temp == a.temp;
    assert a.people == d.people;
  }

  /** Nobody resting with a used rest day is eligible for "1322", except possibly `p`. */
  lemma NoneFor1322(d: Day, order: seq<nat>, wk: int, p: nat)
    requires Sized(d) && p < |d.temp| && Get(d.people[p].weekOff, wk) >= 1
    requires forall j :: 0 <= j < |d.temp| && j != p ==> d.temp[j] == Some(Off) && Get(d.people[j].weekOff, wk) >= 1
    ensures Target1322(d, order, wk).None?
  {
    forall m | 0 <= m < |order| ensures !Eligible1322(d, wk, order[m]) {
    }
  }

  /**
   After pass B, with every rest day counted: a guard rescue comes from the
   first search, leaves the rescued person at most at both work caps, and
   pass C finds nobody to move.
   */
  lemma RescueAfterPassB(b: Day, order: seq<nat>, wk: int, rand: nat -> nat, calls: nat)
    requires Sized(b) && OffsRested(b, wk)
    ensures var g := Guard(b, order, wk, rand, calls);
            g.pick.Some? ==>
              && GuardEligible(b, wk, g.pick.value)
              && g.day.temp[g.pick.value].Some? && IsWork(g.day.temp[g.pick.value].value)
              && Get(g.day.people[g.pick.value].weekWork, wk) <= 6 && g.day.people[g.pick.value].streak <= 6
              && (forall j :: 0 <= j < |b.temp| && j != g.pick.value ==> g.day.temp[j] == Some(Off))
              && PassC(g.day, order, wk) == g.day
  {
    var g := Guard(b, order, wk, rand, calls);
    if g.pick.Some? {
      var p := g.pick.value;
      assert b.temp[p] == Some(Off);
      NoneFor1322(g.day, order, wk, p);
    }
  }

  /**
   The guard's rescue stands. When every rest day of the initial pass is
   counted and the guard fires, passes A and B changed nothing, the person
   came from the guard's first search, and pass C finds nobody to move: at
   the end of the day the rescued person works, at most at both work caps,
   and everybody else rests.
   */
  lemma GuardRescueStands(d: Day, order: seq<nat>, wk: int, rand: nat -> nat, calls: nat)
    requires Sized(d) && OffsRested(d, wk)
    ensures var g := Repairs(d, order, wk, rand, calls);
            g.pick.Some? ==>
              && GuardEligible(d, wk, g.pick.value)
              && g.day.temp[g.pick.value].Some? && IsWork(g.day.temp[g.pick.value].value)
              && Get(g.day.people[g.pick.value].weekWork, wk) <= 6 && g.day.people[g.pick.value].streak <= 6
              && forall j :: 0 <= j < |d.temp| && j != g.pick.value ==> g.day.temp[j] == Some(Off)
  {
    var b := FirstRepairs(d, order, wk);
    var g := Guard(b, order, wk, rand, calls);
    assert Repairs(d, order, wk, rand, calls) == GuardResult(PassC(g.day, order, wk), g.pick, g.calls);
    if g.pick.Some? {
      UntouchedWhenAllOff(d, order, wk);
      assert OffsRested(b, wk);
      RescueAfterPassB(b, order, wk, rand, calls);
    }
  }
}

=== FILE: run_state.dfy ===
/**
 The per-person state of one generation run and the initial pass of a day:
 the shift each person gets before any repair, chosen by the forcing rules
 (six-day streak, six working days in the week bucket, no "918" after a
 "1500") and then by the pick policy.

 All tallies are plain integers (JavaScript numbers); weekly tallies are
 keyed by week bucket and read as 0 where no entry exists yet.
 */
module RunState {
  import opened Shifts
  import opened Selection

  /** The state the generator keeps for one person across the days of a run. */
  datatype PersonState = PersonState(
    weekWork: map<int, int>,       // working days per week bucket
    weekOff: map<int, int>,        // rest days per week bucket
    streak: int,                   // consecutive working days
    previous: Option<ShiftCode>)   // the shift of the day before, if any

  /** The state of a person before the first day of a run. */
  const Fresh := PersonState(map[], map[], 0, None)

  /** A weekly tally, 0 where the bucket has no entry yet. */
  function Get(m: map<int, int>, w: int): int {
    if w in m then m[w] else 0
  }

  /** Adds `delta` to the tally of bucket `w`, leaving other buckets alone. */
  function Bump(m: map<int, int>, w: int, delta: int): (r: map<int, int>)
    ensures Get(r, w) == Get(m, w) + delta
    ensures forall v :: v != w ==> Get(r, v) == Get(m, v)
  {
    m[w := Get(m, w) + delta]
  }

  /** The rest-day tallies of `b` equal those of `a` except for bucket `wk`, where they may have grown. */
  ghost predicate OffGrew(a: PersonState, b: PersonState, wk: int) {
    && (forall v :: v != wk ==> Get(b.weekOff, v) == Get(a.weekOff, v))
    && Get(b.weekOff, wk) >= Get(a.weekOff, wk)
  }

  /** Which rule of the initial pass decided a person's shift. */
  datatype Branch =
    | StreakRest      // six-day streak: forced rest
    | StreakRelief    // six-day streak but rest already used this bucket: forced work
    | WorkRest        // six working days this bucket: forced rest
    | WorkRelief      // six working days but rest already used: forced work
    | AfterLate       // yesterday was "1500": no "918" today
    | AfterLateStuck  // as above, but nothing survived the caps: an uncounted rest day
    | Regular         // no forcing rule

  predicate IsRelief(b: Branch) {
    b == StreakRelief || b == WorkRelief
  }

  /** The outcome of the initial pass for one person. */
  datatype Step = Step(
    shift: ShiftCode,
    person: PersonState,
    counts: Counts,
    day1322: int,
    day1500: int,
    calls: nat,
    branch: Branch)

  /**
   Records the pick `s`: a working shift adds to the bucket's working days,
   the streak, the day's tally of its code and the person's 918/1500 count;
   any pick becomes the person's previous shift.
   */
  function Record(ps: PersonState, c: Counts, wk: int, s: ShiftCode, day1322: int, day1500: int,
                  calls: nat, branch: Branch): (r: Step)
    ensures r.shift == s && r.person.previous == Some(s) && r.branch == branch && r.calls == calls
    ensures r.person.weekOff == ps.weekOff
    ensures IsWork(s) ==> Get(r.person.weekWork, wk) == Get(ps.weekWork, wk) + 1
    ensures forall v :: v != wk ==> Get(r.person.weekWork, v) == Get(ps.weekWork, v)
    ensures IsWork(s) ==> r.person.streak == ps.streak + 1
    ensures !IsWork(s) ==> r.person == ps.(previous := Some(s)) && r.counts == c
    ensures r.day1322 == day1322 + (if s == Shift1322 then 1 else 0)
    ensures r.day1500 == day1500 + (if s == Shift1500 then 1 else 0)
    ensures r.counts.n918 == c.n918 + (if s == Shift918 then 1 else 0)
    ensures r.counts.n1500 == c.n1500 + (if s == Shift1500 then 1 else 0)
  {
    if IsWork(s) then
      Step(s,
           ps.(weekWork := Bump(ps.weekWork, wk, 1), streak := ps.streak + 1, previous := Some(s)),
           Counts(c.n918 + (if s == Shift918 then 1 else 0), c.n1500 + (if s == Shift1500 then 1 else 0)),
           day1322 + (if s == Shift1322 then 1 else 0),
           day1500 + (if s == Shift1500 then 1 else 0),
           calls, branch)
    else
      Step(s, ps.(previous := Some(s)), c, day1322, day1500, calls, branch)
  }

  /** A forced rest day: counted in the bucket's rest tally. */
  function Rest(ps: PersonState, c: Counts, wk: int, streak: int, day1322: int, day1500: int,
                calls: nat, branch: Branch): (r: Step)
    ensures r.shift == Off && r.person.previous == Some(Off) && r.person.streak == streak
    ensures Get(r.person.weekOff, wk) == Get(ps.weekOff, wk) + 1 && OffGrew(ps, r.person, wk)
    ensures r.person.weekWork == ps.weekWork && r.counts == c
    ensures r.day1322 == day1322 && r.day1500 == day1500 && r.calls == calls && r.branch == branch
  {
    Step(Off, ps.(weekOff := Bump(ps.weekOff, wk, 1), streak := streak, previous := Some(Off)),
         c, day1322, day1500, calls, branch)
  }

  /**
   What every outcome of the initial pass keeps: a generated code that
   becomes the previous shift, rest tallies that only grow in the day's bucket, the daily caps of the
   pick policy, and the day's running tallies following the pick.
   */
  ghost predicate Tracks(ps: PersonState, me: nat, wk: int, day1322: int, day1500: int,
                         temp: seq<Option<ShiftCode>>, calls: nat, r: Step)
  {
    && Generated(r.shift)
    && r.person.previous == Some(r.shift)
    && r.calls >= calls
    && OffGrew(ps, r.person, wk)
    && (r.shift == Shift1322 ==> !Capped1322(day1322, temp, me))
    && (r.shift == Shift1500 ==> !Capped1500(day1500, temp, me))
    && r.day1322 == day1322 + (if r.shift == Shift1322 then 1 else 0)
    && r.day1500 == day1500 + (if r.shift == Shift1500 then 1 else 0)
  }

  /**
   A forcing rule (six-day streak, or six working days in the bucket): a
   rest day while the bucket has none, otherwise a working shift by the
   pick policy ("cap relief").
   */
  function ForcedStep(ps: PersonState, me: nat, wk: int, day1322: int, day1500: int,
                      counts: seq<Counts>, temp: seq<Option<ShiftCode>>, rand: nat -> nat, calls: nat,
                      relief: Branch, rest: Branch, restStreak: int): (r: Step)
    requires me < |counts|
    ensures Tracks(ps, me, wk, day1322, day1500, temp, calls, r)
    ensures Get(ps.weekOff, wk) >= 1 ==> r.branch == relief && IsWork(r.shift)
    ensures Get(ps.weekOff, wk) < 1 ==>
              && r.branch == rest && r.shift == Off && r.person.streak == restStreak
              && Get(r.person.weekOff, wk) == Get(ps.weekOff, wk) + 1
  {
    if Get(ps.weekOff, wk) >= 1 then
      var s := SelectShift([Shift918, Shift1322, Shift1500], me, day1322, day1500, counts, temp, rand(calls));
      Record(ps, counts[me], wk, s, day1322, day1500, calls + 1, relief)
    else
      Rest(ps, counts[me], wk, restStreak, day1322, day1500, calls, rest)
  }

  /**
   Yesterday was "1500": the candidates are "1322", "1500" and, while the
   bucket has no rest day, Off. When Off comes back although it was no
   candidate (both caps reached), the fallback over "1322" and "1500" faces
   the same caps, and an Off it returns is not counted.
   */
  function AfterLateStep(ps: PersonState, me: nat, wk: int, day1322: int, day1500: int,
                         counts: seq<Counts>, temp: seq<Option<ShiftCode>>, rand: nat -> nat, calls: nat): (r: Step)
    requires me < |counts|
    ensures Tracks(ps, me, wk, day1322, day1500, temp, calls, r)
    ensures r.branch == AfterLate || r.branch == AfterLateStuck
    ensures r.shift != Shift918
    ensures r.shift == Off && r.branch == AfterLate ==>
              Get(ps.weekOff, wk) < 1 && Get(r.person.weekOff, wk) == Get(ps.weekOff, wk) + 1 && r.person.streak == 0
    ensures r.branch == AfterLateStuck ==>
              r.shift == Off && Get(ps.weekOff, wk) >= 1 && r.person.weekOff == ps.weekOff
  {
    var off := Get(ps.weekOff, wk);
    var available := if off >= 1 then [Shift1322, Shift1500] else [Shift1322, Shift1500, Off];
    var s := SelectShift(available, me, day1322, day1500, counts, temp, rand(calls));
    // SelectShift answers a candidate or Off, never a leave code, so the
    // third case of `generateScheduleForTeam` (a leave code) cannot arise
    if IsWork(s) then
      Record(ps, counts[me], wk, s, day1322, day1500, calls + 1, AfterLate)
    else if off >= 1 then
      AfterLateFallback(ps, me, wk, day1322, day1500, counts, temp, rand, calls + 1)
    else
      Rest(ps, counts[me], wk, 0, day1322, day1500, calls + 1, AfterLate)
  }

  /**
   The fallback after a "1500" when Off came back although the bucket's
   rest day is used: the same caps apply, so Off may come back again, and
   then it is recorded without being counted.
   */
  function AfterLateFallback(ps: PersonState, me: nat, wk: int, day1322: int, day1500: int,
                             counts: seq<Counts>, temp: seq<Option<ShiftCode>>, rand: nat -> nat, calls: nat): (r: Step)
    requires me < |counts|
    ensures Tracks(ps, me, wk, day1322, day1500, temp, calls, r)
    ensures r.shift != Shift918 && r.person.weekOff == ps.weekOff
    ensures r.branch == (if r.shift == Off then AfterLateStuck else AfterLate)
  {
    var f := SelectShift([Shift1322, Shift1500], me, day1322, day1500, counts, temp, rand(calls));
    Record(ps, counts[me], wk, f, day1322, day1500, calls + 1, if IsWork(f) then AfterLate else AfterLateStuck)
  }

  /**
   No forcing rule: all three working shifts, plus Off while the bucket has
   no rest day. "918" is always a candidate, so the pick is never Off and
   `generateScheduleForTeam`'s rest and fallback handling for this case
   never runs.
   */
  function RegularStep(ps: PersonState, me: nat, wk: int, day1322: int, day1500: int,
                       counts: seq<Counts>, temp: seq<Option<ShiftCode>>, rand: nat -> nat, calls: nat): (r: Step)
    requires me < |counts|
    ensures Tracks(ps, me, wk, day1322, day1500, temp, calls, r)
    ensures r.branch == Regular && IsWork(r.shift)
  {
    var allWork := [Shift918, Shift1322, Shift1500];
    var available := if Get(ps.weekOff, wk) >= 1 then allWork else allWork + [Off];
    var s := SelectShift(available, me, day1322, day1500, counts, temp, rand(calls));
    Record(ps, counts[me], wk, s, day1322, day1500, calls + 1, Regular)
  }

  /**
   The initial pass for person `me` on a day of bucket `wk`: `ps` is the
   person's state, `counts` the team's 918/1500 counts, `temp` the day's
   provisional picks so far, `day1322`/`day1500` the day's running tallies,
   and `rand(calls)` the next random draw.
   */
  function InitialStep(ps: PersonState, me: nat, wk: int, day1322: int, day1500: int,
                       counts: seq<Counts>, temp: seq<Option<ShiftCode>>,
                       rand: nat -> nat, calls: nat): (r: Step)
    requires me < |counts|
    ensures Tracks(ps, me, wk, day1322, day1500, temp, calls, r)
    // which rule applies
    ensures (r.branch == StreakRest || r.branch == StreakRelief) <==> ps.streak >= 6
    ensures (r.branch == WorkRest || r.branch == WorkRelief)
            <==> ps.streak < 6 && Get(ps.weekWork, wk) >= 6
    ensures (r.branch == AfterLate || r.branch == AfterLateStuck)
            <==> ps.streak < 6 && Get(ps.weekWork, wk) < 6 && ps.previous == Some(Shift1500)
    ensures IsRelief(r.branch) <==> (ps.streak >= 6 || Get(ps.weekWork, wk) >= 6) && Get(ps.weekOff, wk) >= 1
    // forced rest is only placed while the bucket has no rest day yet
    ensures (r.branch == StreakRest || r.branch == WorkRest) ==>
              r.shift == Off && Get(ps.weekOff, wk) < 1 && Get(r.person.weekOff, wk) == Get(ps.weekOff, wk) + 1
    ensures r.branch == StreakRest ==> r.person.streak == 0
    ensures IsRelief(r.branch) || r.branch == Regular ==> r.shift != Off
    // after a "1500" the initial pick is never "918"
    ensures r.branch == AfterLate || r.branch == AfterLateStuck ==> r.shift != Shift918
    // every rest day is counted, except the one left behind by a stuck fallback
    ensures r.shift == Off ==>
              (Get(ps.weekOff, wk) < 1 && Get(r.person.weekOff, wk) == Get(ps.weekOff, wk) + 1)
              || r.branch == AfterLateStuck
    ensures r.branch == AfterLateStuck ==> r.shift == Off && Get(ps.weekOff, wk) >= 1
  {
    if ps.streak >= 6 then
      ForcedStep(ps, me, wk, day1322, day1500, counts, temp, rand, calls, StreakRelief, StreakRest, 0)
    else if Get(ps.weekWork, wk) >= 6 then
      // the streak restarts only when the day before was a working day
      var streak := if ps.previous.Some? && IsWork(ps.previous.value) then 0 else ps.streak;
      ForcedStep(ps, me, wk, day1322, day1500, counts, temp, rand, calls, WorkRelief, WorkRest, streak)
    else if ps.previous == Some(Shift1500) then
      AfterLateStep(ps, me, wk, day1322, day1500, counts, temp, rand, calls)
    else
      RegularStep(ps, me, wk, day1322, day1500, counts, temp, rand, calls)
  }
}

=== FILE: selection.dfy ===
/**
 The pick policy of the generator (`selectShift`): daily caps on "1322" and
 "1500", then 918/1500 load balancing against the team minimum, then a
 random pick among the surviving working shifts.

 Persons are the positions 0 .. n-1 of the team's person list. The
 provisional picks of the day are a sequence indexed by person (`None` for
 a person not yet handled today); the random draw is the parameter `pick`,
 reduced modulo the number of surviving shifts, so every surviving shift is
 reachable by some draw.
 */
module Selection {
  import opened Shifts

  /** Per-person lifetime counts of "918" and "1500" within one run. */
  datatype Counts = Counts(n918: int, n1500: int)

  /**
   The number of persons other than `skip` whose provisional shift today is
   `c` (a negative `skip` excludes nobody).
   */
  function Tally(temp: seq<Option<ShiftCode>>, c: ShiftCode, skip: int): nat
    decreases |temp|
  {
    if |temp| == 0 then 0
    else
      var last := |temp| - 1;
      Tally(temp[..last], c, skip) + if last != skip && temp[last] == Some(c) then 1 else 0
  }

  /** The number of persons whose provisional shift today is `c`. */
  function Count(temp: seq<Option<ShiftCode>>, c: ShiftCode): nat {
    Tally(temp, c, -1)
  }

  /** `xs` without any occurrence of `x`, order kept. */
  function Without(xs: seq<ShiftCode>, x: ShiftCode): (r: seq<ShiftCode>)
    ensures forall y :: y in r <==> y in xs && y != x
    ensures |r| <= |xs|
  {
    if |xs| == 0 then []
    else (if xs[0] == x then [] else [xs[0]]) + Without(xs[1..], x)
  }

  /** The smallest "918" count of the team. */
  function Min918(counts: seq<Counts>): (m: int)
    requires |counts| > 0
    ensures forall i :: 0 <= i < |counts| ==> m <= counts[i].n918
    ensures exists i :: 0 <= i < |counts| && m == counts[i].n918
  {
    if |counts| == 1 then counts[0].n918
    else
      var rest := Min918(counts[1..]);
      assert forall i :: 1 <= i < |counts| ==> counts[i] == counts[1..][i - 1];
      if counts[0].n918 <= rest then counts[0].n918 else rest
  }

  /** The smallest "1500" count of the team. */
  function Min1500(counts: seq<Counts>): (m: int)
    requires |counts| > 0
    ensures forall i :: 0 <= i < |counts| ==> m <= counts[i].n1500
    ensures exists i :: 0 <= i < |counts| && m == counts[i].n1500
  {
    if |counts| == 1 then counts[0].n1500
    else
      var rest := Min1500(counts[1..]);
      assert forall i :: 1 <= i < |counts| ==> counts[i] == counts[1..][i - 1];
      if counts[0].n1500 <= rest then counts[0].n1500 else rest
  }

  /** "1322" is capped once one person (committed tally plus others' picks) holds it. */
  predicate Capped1322(day1322: int, temp: seq<Option<ShiftCode>>, me: int) {
    day1322 + Tally(temp, Shift1322, me) >= 1
  }

  /** "1500" is capped once four holders are counted. */
  predicate Capped1500(day1500: int, temp: seq<Option<ShiftCode>>, me: int) {
    day1500 + Tally(temp, Shift1500, me) >= 4
  }

  /** The candidate list after the two daily caps. */
  function Surviving(available: seq<ShiftCode>, me: int, day1322: int, day1500: int,
                     temp: seq<Option<ShiftCode>>): (r: seq<ShiftCode>)
    ensures forall x :: x in r ==> x in available
    ensures Capped1322(day1322, temp, me) ==> Shift1322 !in r
    ensures Capped1500(day1500, temp, me) ==> Shift1500 !in r
    ensures forall x :: x in available && x != Shift1322 && x != Shift1500 ==> x in r
    ensures !Capped1322(day1322, temp, me) && Shift1322 in available ==> Shift1322 in r
    ensures !Capped1500(day1500, temp, me) && Shift1500 in available ==> Shift1500 in r
  {
    var afterCap1322 := if Capped1322(day1322, temp, me) then Without(available, Shift1322) else available;
    if Capped1500(day1500, temp, me) then Without(afterCap1322, Shift1500) else afterCap1322
  }

  /** Nothing but `Off` survives. */
  predicate OnlyRest(xs: seq<ShiftCode>) {
    forall i :: 0 <= i < |xs| ==> xs[i] == Off
  }

  /** The balancing rule that prefers "1500" applies. */
  predicate Prefers1500(me: nat, counts: seq<Counts>, survivors: seq<ShiftCode>)
    requires me < |counts|
  {
    counts[me].n918 > Min918(counts) && Shift1500 in survivors
  }

  /** The balancing rule that prefers "918" applies. */
  predicate Prefers918(me: nat, counts: seq<Counts>, survivors: seq<ShiftCode>)
    requires me < |counts|
  {
    counts[me].n1500 > Min1500(counts) && Shift918 in survivors
  }

  /** The random choice among the working shifts of `survivors`: Off when there is none. */
  function RandomPick(survivors: seq<ShiftCode>, pick: nat): (r: ShiftCode)
    ensures r == Off <==> OnlyRest(survivors)
    ensures r != Off ==> r in survivors
  {
    var valid := Without(survivors, Off);
    assert |valid| == 0 ==> forall i :: 0 <= i < |survivors| ==> survivors[i] in survivors;
    if |valid| > 0 then
      var x := valid[pick % |valid|];
      assert x in valid && x in survivors && x != Off;
      x
    else Off
  }

  /**
   The shift picked for person `me` from `available`, given today's
   committed tallies `day1322` and `day1500`, the team's counts and today's
   provisional picks `temp`.
   */
  function SelectShift(available: seq<ShiftCode>, me: nat, day1322: int, day1500: int,
                       counts: seq<Counts>, temp: seq<Option<ShiftCode>>, pick: nat): (r: ShiftCode)
    requires me < |counts|
    // the result survives the caps, or is the rest day
    ensures r == Off || r in Surviving(available, me, day1322, day1500, temp)
    ensures r == Off || r in available
    ensures r == Shift1322 ==> !Capped1322(day1322, temp, me)
    ensures r == Shift1500 ==> !Capped1500(day1500, temp, me)
    // rest is picked exactly when no working shift survives the caps
    ensures r == Off <==> OnlyRest(Surviving(available, me, day1322, day1500, temp))
    ensures Shift918 in available ==> r != Off
    // load balancing
    ensures Prefers1500(me, counts, Surviving(available, me, day1322, day1500, temp)) ==> r == Shift1500
    ensures (!Prefers1500(me, counts, Surviving(available, me, day1322, day1500, temp))
             && Prefers918(me, counts, Surviving(available, me, day1322, day1500, temp))) ==> r == Shift918
  {
    var survivors := Surviving(available, me, day1322, day1500, temp);
    if survivors == [Off] then
      Off
    else if counts[me].n918 > Min918(counts) && Shift1500 in survivors then
      Shift1500
    else if counts[me].n1500 > Min1500(counts) && Shift918 in survivors then
      Shift918
    else
      RandomPick(survivors, pick)
  }

  /**
   When neither balancing rule applies, every working shift that survives
   the caps is the outcome of some random draw.
   */
  lemma EverySurvivorReachable(available: seq<ShiftCode>, me: nat, day1322: int, day1500: int,
                               counts: seq<Counts>, temp: seq<Option<ShiftCode>>, x: ShiftCode)
    requires me < |counts|
    requires x != Off && x in Surviving(available, me, day1322, day1500, temp)
    requires !Prefers1500(me, counts, Surviving(available, me, day1322, day1500, temp))
    requires !Prefers918(me, counts, Surviving(available, me, day1322, day1500, temp))
    ensures exists pick: nat :: SelectShift(available, me, day1322, day1500, counts, temp, pick) == x
  {
    var survivors := Surviving(available, me, day1322, day1500, temp);
    var pick := RandomPickHits(survivors, x);
    assert survivors != [Off];
    assert !(counts[me].n918 > Min918(counts) && Shift1500 in survivors);
    assert !(counts[me].n1500 > Min1500(counts) && Shift918 in survivors);
    assert SelectShift(available, me, day1322, day1500, counts, temp, pick) == RandomPick(survivors, pick);
  }

  /** Every working shift among `survivors` is the random choice of some draw. */
  lemma RandomPickHits(survivors: seq<ShiftCode>, x: ShiftCode) returns (pick: nat)
    requires x != Off && x in survivors
    ensures RandomPick(survivors, pick) == x
  {
    var valid := Without(survivors, Off);
    assert x in valid;
    var i :| 0 <= i < |valid| && valid[i] == x;
    SmallRemainder(i, |valid|);
    pick := i;
  }

  lemma SmallRemainder(a: nat, b: nat)
    requires a < b
    ensures a % b == a
  {
  }

  // ---- facts about the tallies of provisional picks ----

  /**
   Writing `v` into slot `p` removes the slot's old contribution to the
   tally of `c` and adds the new one (a skipped slot contributes nothing).
   */
  lemma {:induction false} TallySet(temp: seq<Option<ShiftCode>>, p: nat, v: Option<ShiftCode>, c: ShiftCode, skip: int)
    requires p < |temp|
    ensures Tally(temp[p := v], c, skip)
            == Tally(temp, c, skip) - (if p != skip && temp[p] == Some(c) then 1 else 0)
                                    + (if p != skip && v == Some(c) then 1 else 0)
    decreases |temp|
  {
    var last := |temp| - 1;
    var t' := temp[p := v];
    if p == last {
      assert t'[..last] == temp[..last];
    } else {
      assert t'[..last] == temp[..last][p := v];
      TallySet(temp[..last], p, v, c, skip);
    }
  }

  /** Writing `v` over the slot of a person the tally skips leaves the tally alone. */
  lemma {:induction false} TallyIgnoresSkipped(temp: seq<Option<ShiftCode>>, p: nat, v: Option<ShiftCode>, c: ShiftCode)
    requires p < |temp|
    ensures Tally(temp[p := v], c, p) == Tally(temp, c, p)
    decreases |temp|
  {
    var last := |temp| - 1;
    if p < last {
      assert temp[p := v][..last] == temp[..last][p := v];
      TallyIgnoresSkipped(temp[..last], p, v, c);
    } else {
      assert temp[p := v][..last] == temp[..last];
    }
  }

  /** A skipped slot that does not hold `c` does not change the tally of `c`. */
  lemma {:induction false} TallySkipEmpty(temp: seq<Option<ShiftCode>>, c: ShiftCode, skip: nat)
    requires skip < |temp| ==> temp[skip] != Some(c)
    ensures Tally(temp, c, skip) == Count(temp, c)
    decreases |temp|
  {
    if |temp| > 0 {
      TallySkipEmpty(temp[..|temp| - 1], c, skip);
    }
  }

  /** The count is zero exactly when nobody holds `c`. */
  lemma {:induction false} CountZero(temp: seq<Option<ShiftCode>>, c: ShiftCode)
    ensures Count(temp, c) == 0 <==> forall i :: 0 <= i < |temp| ==> temp[i] != Some(c)
    decreases |temp|
  {
    if |temp| > 0 {
      var last := |temp| - 1;
      CountZero(temp[..last], c);
      assert forall i :: 0 <= i < last ==> temp[i] == temp[..last][i];
    }
  }

  /** Someone holding `c` makes the count positive. */
  lemma {:induction false} CountPositive(temp: seq<Option<ShiftCode>>, c: ShiftCode, i: nat)
    requires i < |temp| && temp[i] == Some(c)
    ensures Count(temp, c) >= 1
    decreases |temp|
  {
    var last := |temp| - 1;
    if i < last {
      assert temp[..last][i] == temp[i];
      CountPositive(temp[..last], c, i);
    }
  }

  /** At most one person holds `c`. */
  predicate AtMostOne(temp: seq<Option<ShiftCode>>, c: ShiftCode) {
    forall i, j :: 0 <= i < |temp| && 0 <= j < |temp| && temp[i] == Some(c) && temp[j] == Some(c) ==> i == j
  }
}

=== FILE: shifts.dfy ===
/**
 The shift catalogue of the scheduler: the seven shift codes a cell of the
 schedule can hold, and the categories the rules look at.

 - `Shift918`, `Shift1322`, `Shift1500` are the working shifts (codes "918",
   "1322" and "1500" in the application);
 - `Off` is the weekly rest day;
 - `Report` (sick report, "Rapor"), `AnnualLeave` ("Yıllık İzin") and
   `UnpaidLeave` ("Ücretsiz İzin") are leave codes that only a manual edit
   writes and that no rule counts.
 */
module Shifts {

  datatype ShiftCode =
    | Shift918
    | Shift1322
    | Shift1500
    | Off
    | Report
    | AnnualLeave
    | UnpaidLeave

  /** An optional value; `None` stands for an absent (or falsy) shift. */
  datatype Option<+T> = None | Some(value: T)

  /** The leave codes: written by hand only, inert to every rule. */
  predicate IsLeave(s: ShiftCode) {
    s == Report || s == AnnualLeave || s == UnpaidLeave
  }

  /**
   The generator's test for "a working day": the shift is neither `Off` nor
   one of the leave codes.
   */
  predicate IsWork(s: ShiftCode) {
    s != Off && !IsLeave(s)
  }

  /** The codes the generator itself can produce. */
  predicate Generated(s: ShiftCode) {
    IsWork(s) || s == Off
  }
}

=== FILE: store.dfy ===
/**
 The schedule store: one optional shift per (team, date, person) cell.

 The application keeps nested objects `schedules[team][date][person]`; an
 empty intermediate object is indistinguishable from a missing one for
 every reader, so the store is a single map keyed by the triple.
 */
module Store {
  import opened Shifts

  type TeamId = string
  type PersonId = string

  datatype Key = Key(team: TeamId, date: int, person: PersonId)

  type Schedule = map<Key, ShiftCode>

  /** The shift stored in cell `k`, or `None` for an empty cell. */
  function GetShift(s: Schedule, k: Key): (r: Option<ShiftCode>)
    ensures r.None? <==> k !in s
    ensures k in s ==> r == Some(s[k])
  {
    if k in s then Some(s[k]) else None
  }

  /**
   Writes cell `k`: a present shift becomes the cell's entry, an absent
   (falsy) one deletes the entry. Every other cell keeps its entry.
   */
  function SetShift(s: Schedule, k: Key, shift: Option<ShiftCode>): (r: Schedule)
    ensures GetShift(r, k) == shift
    ensures forall k' :: k' != k ==> GetShift(r, k') == GetShift(s, k')
    ensures r.Keys == if shift.Some? then s.Keys + {k} else s.Keys - {k}
  {
    match shift
    case Some(v) => s[k := v]
    case None => s - {k}
  }

  /** Writing back what a cell already holds leaves the store as it was. */
  lemma SetWhatIsStored(s: Schedule, k: Key)
    ensures SetShift(s, k, GetShift(s, k)) == s
  {
    var r := SetShift(s, k, GetShift(s, k));
    assert forall k' :: k' in r <==> k' in s;
    forall k' | k' in r
      ensures r[k'] == s[k']
    {
      assert GetShift(r, k') == GetShift(s, k');
    }
  }

  /** A second write of the same cell overrides the first. */
  lemma SetOverrides(s: Schedule, k: Key, a: Option<ShiftCode>, b: Option<ShiftCode>)
    ensures SetShift(SetShift(s, k, a), k, b) == SetShift(s, k, b)
  {
    var r1, r2 := SetShift(SetShift(s, k, a), k, b), SetShift(s, k, b);
    assert r1.Keys == r2.Keys;
    forall k' | k' in r1
      ensures r1[k'] == r2[k']
    {
      assert GetShift(r1, k') == GetShift(r2, k');
    }
  }

  /** Writes of two different cells commute. */
  lemma SetCommutes(s: Schedule, k1: Key, a: Option<ShiftCode>, k2: Key, b: Option<ShiftCode>)
    requires k1 != k2
    ensures SetShift(SetShift(s, k1, a), k2, b) == SetShift(SetShift(s, k2, b), k1, a)
  {
    var r1, r2 := SetShift(SetShift(s, k1, a), k2, b), SetShift(SetShift(s, k2, b), k1, a);
    assert r1.Keys == r2.Keys;
    forall k' | k' in r1
      ensures r1[k'] == r2[k']
    {
      assert GetShift(r1, k') == GetShift(r2, k');
    }
  }
}
